=== FILE: README.md ===
# Task-scheduling server, modelled in Dafny

This project models the scheduling core of `Server.java`. That is a TCP server:
clients ask it to run one of a fixed set of administration scripts, and it
queues their requests. Its core keeps five shared registries:

- a priority queue of pending tasks, ordered by priority and then by enqueue time;
- the set of scripts currently running, which serves as a per-script lock;
- a per-client timestamp of the last accepted request (a 300 000 ms rate limiter);
- an append-only history log;
- an atomic id counter that starts at 100.

Client sessions, a dispatcher loop and one worker per dispatched task all
read and change these registries.

The model keeps the registries in one immutable `Registry.State`.
Each thread's action becomes a pure transition on that state:

- `Protocol.HandleRequest`: a session handling one line.
- `Dispatcher.DispatchStep`: one iteration of `processTasks`.
- `Dispatcher.WorkerStart` and `Dispatcher.WorkerFinish`: the two halves of a worker job.

`Safety` puts the transitions together into a state machine (`Step`, `Next`,
`Run`) and proves invariants of the reachable states:

- in every reachable state, the running set is exactly the scripts of the
  dispatched, unfinished tasks, and no two such tasks share a script;
- before the id counter can wrap around, task ids are also unique and at most
  the counter.

Modules, in dependency order:

- `Base`: `Option`, `Result`, Java's `int` range and the wrap-around of
  `AtomicInteger.incrementAndGet`.
- `Text`: Java's `String.split(";")`, including its dropping of trailing empty
  fields. Also `Integer.parseInt`, `Integer.toString`, and splitting at the
  first delimiter.
- `Tasks`: `Task`, `compareTo`, the stable sort behind `QUEUE_STATUS`, and the
  minimum the queue's `take` removes.
- `Registry`: the state, the script table, the rate limiter, enqueue and cancel.
- `Render`: the `QUEUE_STATUS` and `TASK_HISTORY` bodies.
- `Protocol`: command dispatch, request validation, and the reply wire format.
- `Dispatcher`: deferral or dispatch, the worker's log records and broadcasts,
  and the lock release.
- `Safety`: the state machine and its invariant.
- `Scenarios`: concrete conversations with a fresh server.

Every client request and worker step takes the current time `now`, in milliseconds, as a parameter. A dispatcher iteration reads no clock.
Rendering takes a function `stamp: int -> string` in place of the
`yyyy-MM-dd HH:mm:ss` date formatter.

## Model

| member | source | states |
|---|---|---|
| Base.Increment32 | Server/Server/Server.java:15 | The next id exceeds the counter unless the counter is at the top of the `int` range, where it wraps below it. |
| Text.Split | Server/Server/Server.java:156 | `split(";")`: no field holds `;`, and the fields are the delimiter-separated pieces with the trailing empty ones removed. When the line contains `;`, either no field remains or the last one is non-empty. A line without `;` is a single field, so `""` gives one empty field. |
| Text.SplitJoin | Server/Server/Server.java:156 | Splitting fields joined with `;` gives them back, when there are at least two, none contains `;` and the last is non-empty. |
| Text.ParseInt32 | Server/Server/Server.java:160-162 | `parseInt` accepts a string exactly when it is an optional `-` or `+` followed by at least one digit and denotes a value in the `int` range. It then returns that value: the digits' decimal value, negated after `-`. |
| Text.ParseIntToString | Server/Server/Server.java:160-162 | Every `int`, written in decimal, parses back to itself. |
| Text.ParseIntNonCanonical | Server/Server/Server.java:160-162 | A leading `+` and leading zeros are accepted and ignored. A numeral above 2^31 - 1 is rejected, and so is its negation below -2^31. |
| Text.IntToStringInjective | Server/Server/Server.java:192 | Different integers are written differently, so distinct ids give distinct `Task queued with ID` replies. |
| Tasks.PrecedesLexicographic | Server/Server/Server.java:49-53 | `compareTo` orders tasks lexicographically by (priority, enqueue time); it returns 0 exactly when both are equal. |
| Tasks.CompareAntisymmetric | Server/Server/Server.java:49-53 | `compareTo(a, b)` is -1, 0 or 1, and is the negation of `compareTo(b, a)`. |
| Tasks.PrecedesTotalPreorder | Server/Server/Server.java:49-53 | The induced order is reflexive, total and transitive, as `Collections.sort` and the priority queue require. |
| Tasks.Sort | Server/Server/Server.java:221-222 | The snapshot is sorted by `compareTo` and is a permutation of the queue. |
| Tasks.SortSameElements | Server/Server/Server.java:221-222 | The snapshot holds exactly the pending tasks. |
| Tasks.MinIndex | Server/Server/Server.java:300 | `take` returns a task that precedes every pending task. It is the first such task in queue order. |
| Tasks.RemoveAt | Server/Server/Server.java:251 | Removing one task keeps the others in order, and the queue's multiset loses exactly that task. |
| Registry.ScriptName | Server/Server/Server.java:208-216 | The table knows exactly the services 2001 to 2004. |
| Registry.ScriptKeysDistinct | Server/Server/Server.java:165-176 | Distinct table services lock distinct scripts, no table script is a `MySQL_login_<user>.sh` key, and distinct users get distinct keys. |
| Registry.RateLimited | Server/Server/Server.java:202-206 | A client with no accepted request is never limited. A limited client was last accepted less than 300 000 ms before `now`. |
| Registry.RateLimitExpires | Server/Server/Server.java:202-206 | A client is limited from its last acceptance until 300 000 ms later. From then on it stays free until its next acceptance. |
| Registry.StatusText | Server/Server/Server.java:316-322 | The status `logTask` records begins with `ERROR` exactly for a non-zero exit (`ERROR_CODE_n`) or a launch failure (`ERROR`). |
| Registry.StatusTextInjective | Server/Server/Server.java:316-322 | Distinct statuses are recorded as distinct texts, so the exit code can be read back from `ERROR_CODE_n`. |
| Registry.Enqueue | Server/Server/Server.java:184-193 | An accepted task receives the counter's next value. The queue gains exactly that task, the client's rate entry becomes `now`, and one `QUEUED` record is appended. Locks and workers are untouched. |
| Registry.FindId | Server/Server/Server.java:247-250 | The iterator finds the first pending task with the id. Nothing is found exactly when no pending task has it. |
| Registry.Cancel | Server/Server/Server.java:246-258 | Cancel succeeds exactly when a pending task has the id. It then removes that one task and appends one `CANCELLED` record with the task's script and client; otherwise nothing changes. |
| Render.QueueStatusEmpty | Server/Server/Server.java:218-236 | The body is `Pending Tasks:` followed by `Queue is empty.` exactly when nothing is pending. |
| Render.QueueStatusText | Server/Server/Server.java:218-236 | The body starts with the `Pending Tasks:` header line. When tasks are pending, the next line describes the first task of the sorted snapshot, numbered 1. |
| Render.QueueStatusLines | Server/Server/Server.java:218-236 | Read back line by line, the body is the header and then line k (from 1) for the k-th task of the sorted snapshot, giving its id, script, priority, client and enqueue time. |
| Render.HistoryTextEmpty | Server/Server/Server.java:267-285 | The body is `Task History:` followed by `No task history available.` exactly when the log is empty. |
| Render.HistoryText | Server/Server/Server.java:267-285 | The body starts with the `Task History:` header line. When the log is non-empty, the next line describes its first record, numbered 1. |
| Render.HistoryTextLines | Server/Server/Server.java:267-285 | Read back line by line, the body is the header and then record k (from 1) of the log on line k. |
| Render.HistoryTextExtends | Server/Server/Server.java:267-285 | Once the log is non-empty, a later `TASK_HISTORY` body extends the current one: earlier lines are never rewritten. |
| Protocol.Body | Server/Server/Server.java:287-294 | A response's body is its message. A rejection's body, split at its first `:`, is `REJECTED` and then a space followed by the reason. |
| Protocol.Wire | Server/Server/Server.java:287-294 | For a timestamp without `;`, a reader that splits a reply line at its first `;` gets `STATUS`. Splitting the remainder at its first `;` gives the timestamp and then the whole body, for responses and rejections alike, whatever `;` the body holds. |
| Protocol.Classify | Server/Server/Server.java:141-153 | `REQUEST_TASK` and `CANCEL_TASK` are matched as prefixes and the two queries as whole lines. At most one command applies. |
| Protocol.ParseTaskRequest | Server/Server/Server.java:155-198 | A line is accepted exactly when it has at least four fields, an integer service and priority, and either a table service or service 2005 with exactly five fields. The fields map to service, client, priority and script. Each rejection gives the source's reason, checked in the source's order. Fewer than four fields give `Invalid REQUEST_TASK format.` A non-integer service or priority gives the number-format message, before the service is examined. Service 2005 without exactly five fields gives the five-field format message. Any other unknown service n gives `Invalid service number: n`. |
| Protocol.ParseRequestLine | Server/Server/Server.java:155-177 | A line built from a table service, a client without `;` and a priority validates to exactly those values. |
| Protocol.ParseMySqlRequestLine | Server/Server/Server.java:165-170 | A service 2005 line with a non-empty user free of `;` validates to `MySQL_login_<user>.sh`. |
| Protocol.MySqlUserNonEmpty | Server/Server/Server.java:165-170 | An accepted service 2005 request always has five fields and a non-empty user, because `split` drops an empty fifth field. |
| Protocol.HandleTaskRequest | Server/Server/Server.java:155-200 | A request is rejected exactly when validation fails or the client is rate-limited, and a rejection leaves the state unchanged. A validation failure is answered with its reason. A valid request from a limited client is answered `Rate limit exceeded for client: <client>`. On acceptance, the reply carries the next id and the state changes as `Enqueue` describes. |
| Protocol.HandleCancel | Server/Server/Server.java:238-265 | A line without exactly two fields gets the `Invalid CANCEL_TASK format` reply, and a non-integer id gets the `Invalid TaskID format` reply. Neither changes anything. A cancel succeeds exactly when a pending task has the id. Otherwise the reply is `Task <id> not found or already running.` |
| Protocol.HandleRequest | Server/Server/Server.java:141-153 | A `REQUEST_TASK` line is handled exactly as `HandleTaskRequest` does, and a `CANCEL_TASK` line exactly as `HandleCancel` does. Queries are answered with the listings and unknown commands with `Invalid command: <line>`; neither changes the state. Any rejection leaves the state unchanged. The history only grows, by at most one record. |
| Dispatcher.DispatchStep | Server/Server/Server.java:297-307 | An empty queue blocks. Otherwise the taken task precedes every pending task. It is deferred, with the queue's contents kept, exactly when its script is locked. Otherwise its script is locked and a worker is created for it. |
| Dispatcher.DeferralRepeats | Server/Server/Server.java:300-306 | A task strictly ahead of all others whose script stays locked is taken and deferred again on the next iteration. |
| Dispatcher.WorkerStart | Server/Server/Server.java:310-312 | A worker first appends an `EXECUTING` record for its task. |
| Dispatcher.StartedMessage | Server/Server/Server.java:312 | The start broadcast begins `EXECUTING: TaskID `. A reader who splits the rest at the first space recovers the task id, followed by the script in parentheses and `started execution`. |
| Dispatcher.TerminalStatus | Server/Server/Server.java:316-323 | Exit 0 gives `COMPLETED`, any other code n gives `ERROR_CODE_n`, and a launch failure gives `ERROR`. |
| Dispatcher.FinishedMessage | Server/Server/Server.java:316-323 | The end broadcast begins `COMPLETED: TaskID ` for exit code 0, and `ERROR: TaskID ` for a non-zero exit or a launch failure. Then come the task id and a space. After them comes the script in parentheses, followed by `finished with status: ` and the status word, or by `encountered an error: ` and the exception's message. |
| Dispatcher.FinishedStatusEcho | Server/Server/Server.java:316-318 | A script that ran to its end is announced with the same status word at the end of the broadcast as at its start. Every non-zero exit code gives the same broadcast as exit code 1, so the code itself is never broadcast. |
| Dispatcher.WorkerFinish | Server/Server/Server.java:314-326 | A finishing worker appends its terminal record and releases the script lock whatever the outcome. |
| Safety.InitialInv | Server/Server/Server.java:10-15 | The start-up state (empty registries, counter 100) satisfies the invariant. |
| Safety.EnqueueKeepsInv | Server/Server/Server.java:155-200 | Below the top of the counter's range, a `REQUEST_TASK` line keeps the invariant, accepted or not. The invariant then keeps ids unique and at most the counter. |
| Safety.CancelKeepsInv | Server/Server/Server.java:238-265 | A `CANCEL_TASK` line, successful or not, keeps the invariant. |
| Safety.RequestKeepsInv | Server/Server/Server.java:141-265 | While the counter is below the top of the `int` range, every client line keeps ids unique and bounded and keeps the locks matching the workers. |
| Safety.DispatchKeepsInv | Server/Server/Server.java:297-307 | A dispatcher iteration keeps the invariant: a script is locked only when no other worker holds it. |
| Safety.StartKeepsInv | Server/Server/Server.java:310-312 | A worker logging its start keeps the invariant. |
| Safety.FinishKeepsInv | Server/Server/Server.java:308-326 | A finishing worker keeps the invariant and frees exactly its own script. |
| Safety.NextKeepsInv | Server/Server/Server.java:141-327 | Every enabled step keeps the invariant while the counter is below the top of the `int` range. |
| Safety.NextCounter | Server/Server/Server.java:39-40 | A step raises the counter by at most one, and only a `REQUEST_TASK` line can raise it. |
| Safety.NextHistory | Server/Server/Server.java:362-364 | A step appends at most one record and never changes the records already logged. |
| Safety.RunKeepsInv | Server/Server/Server.java:141-327 | A run that starts with the counter at least as many steps below the top of the `int` range keeps the invariant. It extends the history and raises the counter by at most the number of steps. |
| Safety.NextKeepsLocks | Server/Server/Server.java:297-327 | Every enabled step, whatever the counter, keeps the running set equal to the workers' scripts with no script held twice. |
| Safety.RunKeepsLocks | Server/Server/Server.java:297-327 | Runs of any length keep the running set equal to the workers' scripts, with no script held twice. |
| Safety.ReachableSafe | Server/Server/Server.java:297-327 | In every state reached from start-up, after any number of steps, no two unfinished dispatched tasks share a script and the lock set is exactly their scripts. Task ids are unique in every state reached within 2^31 - 101 steps. |
| Safety.AcceptedIdFresh | Server/Server/Server.java:39-40 | While the counter is below the top of the `int` range, an accepted request's id is the counter plus one, greater than every id held or logged, so ids increase in acceptance order. |
| Safety.CancelTwice | Server/Server/Server.java:238-265 | After a successful cancel, the same line is rejected as not found and changes nothing. |
| Safety.RateWindowAfterAccept | Server/Server/Server.java:179-186 | After a client is accepted at t, its next valid request at t2 is rejected exactly when t2 - t < 300 000. |
| Scenarios.FirstRequest | Server/Server/Server.java:184-192 | `REQUEST_TASK;2001;Client1;1` on a fresh server is answered `Task queued with ID 101`. |
| Scenarios.MySqlWithoutUser | Server/Server/Server.java:165-168 | `REQUEST_TASK;2005;Client2;1` is rejected with the five-field format message and changes nothing. |
| Scenarios.CancelUnknown | Server/Server/Server.java:259-261 | `CANCEL_TASK;999` on a fresh server is rejected with `Task 999 not found or already running.` |
| Scenarios.EmptyQueueStatus | Server/Server/Server.java:218-224 | `QUEUE_STATUS` on a fresh server is answered `Pending Tasks:`, a line break, and `Queue is empty.` |
| Scenarios.PriorityOrder | Server/Server/Server.java:49-53 | Tasks enqueued together with priorities 3, 1 and 2 are listed in the order 1, 2, 3. |
| Scenarios.FifoTieBreak | Server/Server/Server.java:49-53 | Of two tasks with equal priority, the earlier one is listed first and taken first. |

## Left out

- Sockets, `readLine`, `println` and the per-connection threads are left out. A session is a sequence of `Request` steps; a line from `readLine` has no `\n` or `\r`.
- The `Network.sh` validation at connection time is left out. It is an external process, so the model starts after a client has been authenticated.
- `ProcessBuilder` and `waitFor` are left out. A script's result is the `Outcome` parameter of a `Finish` step: an exit code, or a launch failure with its exception message.
- The fan-out in `sendToAllClients` and its pruning of broken writers are left out. The model computes the broadcast text only (`StartedMessage`, `FinishedMessage`).
- `SimpleDateFormat` is left out. Dates come from the `stamp` parameter. The current time is one `now` per step, although the source reads the clock separately for the rate check, the task's enqueue time, the rate stamp and each log record.
- Threads, the cached thread pool, `Thread.sleep(100)` after a deferral, and interruption are left out. Steps are atomic and interleave freely, so the races below are not modelled:
  - Two sessions of the same client can both pass the rate check before either stamps it.
  - `cancelTask` walks the iterator's snapshot of the queue. If the dispatcher takes the task before `it.remove()`, the task is still logged `CANCELLED` and reported cancelled, and it then executes.
  - A cancel that arrives while the dispatcher holds a deferred task between `take` and `put` reports a pending task as not found.
- Console logging is left out. It affects no registry.
- The priority queue's heap layout is left out. The queue is a sequence; `cancelTask`'s iterator visits it in sequence order, which cannot matter because ids are unique. `sendQueueStatus` copies the queue in heap-array order before its stable sort, so the listing order of tasks with the same priority and the same millisecond follows the heap layout. `Tasks.Sort` keeps them in the model's queue order instead; no contract states an order among such ties.
- Tasks.MinIndex: the choice among tasks that compare equal (same priority and same millisecond) is fixed, where the heap's choice is arbitrary.
- Text.ParseInt32: only ASCII digits are accepted. `Integer.parseInt` also accepts other Unicode decimal digits.
- Registry.RateLimited: `now - last` is unbounded integer arithmetic. Java's `long` cannot overflow for real clock values.
- Safety.ReachableSafe: the unique-id part holds only for runs of at most 2^31 - 101 steps; mutual exclusion and the lock set hold for runs of any length. After 2^31 - 101 accepted requests, `AtomicInteger` wraps around to -2^31. From then on ids no longer increase. They stay distinct for another 2^31 + 101 requests, which use -2^31 through 100, and the 2^31 + 102nd repeats id 101: about 2^32 requests in all. The model's `Increment32` wraps the same way, but the id invariant bounds ids by the counter, so it is proved only before the wrap.
- Safety.RunKeepsInv: it requires the counter to stay below the top of the `int` range for the whole run, for the same reason.
- Safety.RequestKeepsInv: it requires the counter to be below the top of the `int` range. At the top, an accepted request gets id -2^31, which the id invariant's lower bound excludes.
- Safety.AcceptedIdFresh: it requires the counter to be below the top of the `int` range. At the top, the accepted id wraps to -2^31: it is neither the counter plus one nor above the ids already held.
- A deferral appends no history record, as in the source. The log line `[DEFERRED]` is console output only.
- The client programs are not part of this model.

=== FILE: base.dfy ===
/**
  Small shared vocabulary: optional values, results carrying a rejection
  reason, and Java's 32-bit `int` range.
 */
module Base {

  /** A value that may be absent, in place of Java's `null`. */
  datatype Option<+T> = None | Some(value: T)

  /** Either a value or the human-readable reason it could not be produced. */
  datatype Result<+T> = Ok(value: T) | Err(reason: string)

  const Int32Min: int := -0x8000_0000
  const Int32Max: int := 0x7fff_ffff

  /** True iff `n` fits in a Java `int`. */
  predicate IsInt32(n: int) {
    Int32Min <= n <= Int32Max
  }

  /** The values of a Java `int`. */
  type Int32 = n: int | IsInt32(n)

  /** `AtomicInteger.incrementAndGet` on a counter holding `n`: two's-complement
      wrap-around at the top of the `int` range. */
  function Increment32(n: Int32): (r: Int32)
    ensures n < Int32Max ==> r > n
    ensures n == Int32Max ==> r < n
  {
    assert IsInt32(n);
    if n == Int32Max then assert IsInt32(Int32Min); Int32Min
    else assert IsInt32(n + 1); n + 1
  }
}

=== FILE: dispatcher.dfy ===
/**
  The dispatcher loop (`processTasks`) and the worker job it submits, as
  atomic transitions: one dispatcher iteration, a worker logging the start
  of its script, and a worker finishing with the script's outcome.
 */
module Dispatcher {
  import opened Base
  import opened Text
  import opened Tasks
  import opened Registry

  /** What became of the external script: its exit code, or an exception
      from launching or waiting for it (with the exception's message). */
  datatype Outcome = Exited(code: int) | LaunchFailed(message: string)

  /** What one dispatcher iteration did. `Idle` stands for `take` blocking
      on an empty queue. */
  datatype Dispatch = Idle | Deferred(task: Task) | Started(task: Task)

  /** One iteration of `processTasks`: take the task that precedes all
      others; if its script is already running put it back (deferral),
      otherwise lock the script and hand the task to a new worker. */
  function DispatchStep(s: State): (r: (State, Dispatch))
    ensures |s.queue| == 0 <==> r.1.Idle?
    ensures r.1.Idle? ==> r.0 == s
    ensures !r.1.Idle? ==> r.1.task in s.queue && forall u :: u in s.queue ==> Precedes(r.1.task, u)
    ensures r.1.Deferred? <==> !r.1.Idle? && r.1.task.script in s.running
    ensures r.1.Deferred? ==>
      && multiset(r.0.queue) == multiset(s.queue)
      && r.0.running == s.running && r.0.workers == s.workers
    ensures r.1.Started? ==>
      && multiset(r.0.queue) + multiset{r.1.task} == multiset(s.queue)
      && r.0.running == s.running + {r.1.task.script}
      && r.0.workers == s.workers + [Worker(r.1.task, false)]
    ensures r.0.history == s.history && r.0.lastRequest == s.lastRequest && r.0.counter == s.counter
  {
    if |s.queue| == 0 then (s, Idle)
    else
      var i := MinIndex(s.queue);
      var t := s.queue[i];
      var rest := RemoveAt(s.queue, i);
      if t.script in s.running then
        (s.(queue := rest + [t]), Deferred(t))
      else
        (s.(queue := rest, running := s.running + {t.script}, workers := s.workers + [Worker(t, false)]),
         Started(t))
  }

  /** The broadcast of a starting worker. A reader that drops the
      `EXECUTING: TaskID ` prefix and splits at the first space recovers the
      task id. */
  function StartedMessage(t: Task): (m: string)
    ensures StartsWith(m, "EXECUTING: TaskID ")
    ensures SplitFirst(m[|"EXECUTING: TaskID "|..], ' ')
      == Some((IntToString(t.id), "(" + t.script + ") started execution"))
  {
    IdThenText("EXECUTING: TaskID ", t.id, "(" + t.script + ") started execution")
  }

  /** `prefix`, the decimal id, a space and `rest`; the id is the first
      space-separated word after the prefix. */
  function IdThenText(prefix: string, id: int, rest: string): (m: string)
    ensures StartsWith(m, prefix)
    ensures SplitFirst(m[|prefix|..], ' ') == Some((IntToString(id), rest))
    ensures |m| >= |rest| && m[|m| - |rest|..] == rest
  {
    var word := IntToString(id);
    var tail := word + [' '] + rest;
    IntToStringAvoids(id, ' ');
    SplitFirstJoin(word, rest, ' ');
    var m := prefix + tail;
    assert m[..|prefix|] == prefix;
    assert m[|prefix|..] == tail;
    assert m[|m| - |rest|..] == rest;
    m
  }

  /** The first actions of a worker: log `EXECUTING` and broadcast the start. */
  function WorkerStart(s: State, i: nat, now: int): (r: (State, string))
    requires i < |s.workers| && !s.workers[i].started
    ensures var t := s.workers[i].task;
      && r.0.history == s.history + [LogRecord(t.id, t.script, t.client, Executing, now)]
      && r.0.workers == s.workers[i := Worker(t, true)]
      && r.1 == StartedMessage(t)
    ensures r.0.queue == s.queue && r.0.running == s.running
    ensures r.0.lastRequest == s.lastRequest && r.0.counter == s.counter
  {
    var t := s.workers[i].task;
    (s.(history := s.history + [LogRecord(t.id, t.script, t.client, Executing, now)],
        workers := s.workers[i := Worker(t, true)]),
     StartedMessage(t))
  }

  /** The status a worker logs for an outcome. */
  function TerminalStatus(o: Outcome): (st: LogStatus)
    ensures st == Completed <==> o == Exited(0)
    ensures st.ErrorCode? <==> o.Exited? && o.code != 0
    ensures st.ErrorCode? ==> st.code == o.code
    ensures st == Error <==> o.LaunchFailed?
  {
    match o
    case Exited(code) => if code == 0 then Completed else ErrorCode(code)
    case LaunchFailed(_) => Error
  }

  /** The status word a finished worker broadcasts: a non-zero exit and a
      launch failure are both plain `ERROR`; only the history record keeps
      the code. */
  function StatusWord(o: Outcome): string {
    if o == Exited(0) then "COMPLETED" else "ERROR"
  }

  /** The broadcast of a finished worker: the status word, the task id, the
      script, and either the status word again or the exception's message. */
  function FinishedMessage(t: Task, o: Outcome): (m: string)
    ensures StartsWith(m, StatusWord(o) + ": TaskID ")
    ensures SplitFirst(m[|StatusWord(o) + ": TaskID "|..], ' ') == Some((IntToString(t.id), FinishedRest(t, o)))
  {
    IdThenText(StatusWord(o) + ": TaskID ", t.id, FinishedRest(t, o))
  }

  /** What follows the id in a finished worker's broadcast. */
  function FinishedRest(t: Task, o: Outcome): string {
    match o
    case Exited(_) => "(" + t.script + ") finished with status: " + StatusWord(o)
    case LaunchFailed(message) => "(" + t.script + ") encountered an error: " + message
  }

  /** A script that ran to its end is announced with the same status word at
      both ends of the broadcast (the start is `FinishedMessage`'s prefix):
      `COMPLETED` for exit code 0, otherwise `ERROR`, never the code itself. */
  lemma FinishedStatusEcho(t: Task, o: Outcome)
    requires o.Exited?
    ensures var m := FinishedMessage(t, o);
      |m| >= |StatusWord(o)| && m[|m| - |StatusWord(o)|..] == StatusWord(o)
    ensures o.code != 0 ==> FinishedMessage(t, o) == FinishedMessage(t, Exited(1))
  {
    var w := StatusWord(o);
    var rest := FinishedExitedRest(t, o);
    EndsWithEnd(FinishedMessage(t, o), rest, w);
    FinishedIgnoresCode(t, o);
  }

  /** The broadcast is the same for every non-zero exit code. */
  lemma FinishedIgnoresCode(t: Task, o: Outcome)
    requires o.Exited?
    ensures o.code != 0 ==> FinishedMessage(t, o) == FinishedMessage(t, Exited(1))
  {
    if o.code != 0 {
      assert StatusWord(o) == StatusWord(Exited(1));
      assert FinishedRest(t, o) == FinishedRest(t, Exited(1));
    }
  }

  /** After the id, the broadcast of a script that ran to its end is the
      script in parentheses and the status word again. */
  lemma FinishedExitedRest(t: Task, o: Outcome) returns (rest: string)
    requires o.Exited?
    ensures var m := FinishedMessage(t, o);
      |m| >= |rest| && m[|m| - |rest|..] == rest
    ensures |rest| >= |StatusWord(o)| && rest[|rest| - |StatusWord(o)|..] == StatusWord(o)
  {
    var head := "(" + t.script + ") finished with status: ";
    rest := FinishedRest(t, o);
    assert rest == head + StatusWord(o);
    assert rest[|head|..] == StatusWord(o);
  }

  /** The end of a string's end is the string's end. */
  lemma EndsWithEnd(m: string, rest: string, w: string)
    requires |m| >= |rest| && m[|m| - |rest|..] == rest
    requires |rest| >= |w| && rest[|rest| - |w|..] == w
    ensures |m| >= |w| && m[|m| - |w|..] == w
  {
    assert m[|m| - |w|..] == m[|m| - |rest|..][|rest| - |w|..];
  }

  /** `workers` without the one at `i`. */
  function RemoveWorker(ws: seq<Worker>, i: nat): (r: seq<Worker>)
    requires i < |ws|
    ensures |r| == |ws| - 1
    ensures forall k :: 0 <= k < |r| ==> r[k] == (if k < i then ws[k] else ws[k + 1])
  {
    ws[..i] + ws[i + 1..]
  }

  /** The end of a worker: log the terminal status, broadcast it and, in the
      `finally` block, remove the script from the running set whatever the
      outcome. */
  function WorkerFinish(s: State, i: nat, o: Outcome, now: int): (r: (State, string))
    requires i < |s.workers| && s.workers[i].started
    ensures var t := s.workers[i].task;
      && r.0.history == s.history + [LogRecord(t.id, t.script, t.client, TerminalStatus(o), now)]
      && r.0.running == s.running - {t.script}
      && r.0.workers == RemoveWorker(s.workers, i)
      && r.1 == FinishedMessage(t, o)
    ensures r.0.queue == s.queue && r.0.lastRequest == s.lastRequest && r.0.counter == s.counter
  {
    var t := s.workers[i].task;
    (s.(history := s.history + [LogRecord(t.id, t.script, t.client, TerminalStatus(o), now)],
        running := s.running - {t.script},
        workers := RemoveWorker(s.workers, i)),
     FinishedMessage(t, o))
  }

  /** The known limitation of the deferral loop: when the task at the head of
      the order is strictly ahead of every other pending task and its script
      is locked, the next iteration picks it again and defers it again, so
      later tasks for other scripts wait until the lock is released. */
  lemma DeferralRepeats(s: State)
    requires |s.queue| > 0
    requires DispatchStep(s).1.Deferred?
    requires var t := DispatchStep(s).1.task;
      forall u :: u in s.queue && u != t ==> Compare(t, u) < 0
    ensures var (s', d) := DispatchStep(s);
      DispatchStep(s').1 == d && DispatchStep(s').0.running == s.running
  {
    var s', t := DispatchStep(s).0, DispatchStep(s).1.task;
    assert t in multiset(s'.queue);
    var t' := DispatchStep(s').1.task;
    assert t' in multiset(s.queue);
    assert Precedes(t', t);
    assert t' == t;
  }
}

=== FILE: protocol.dfy ===
/**
  A client session's command handling (`handleClientRequest` and the
  handlers it dispatches to) as a pure transition: one request line and the
  current state give the next state and the reply sent back to that client.
 */
module Protocol {
  import opened Base
  import opened Text
  import opened Tasks
  import opened Registry
  import opened Render

  /** The reply to the requesting client: `sendResponse` or `sendRejected`. */
  datatype Reply = Response(message: string) | Rejected(reason: string)

  /** The message part of a reply line: a response's message as it is, a
      rejection's reason after the `REJECTED` marker. */
  function Body(reply: Reply): (b: string)
    ensures reply.Response? ==> b == reply.message
    ensures reply.Rejected? ==> SplitFirst(b, ':') == Some(("REJECTED", " " + reply.reason))
  {
    match reply
    case Response(m) => m
    case Rejected(why) =>
      SplitFirstJoin("REJECTED", " " + why, ':');
      assert "REJECTED" + [':'] + (" " + why) == "REJECTED: " + why;
      "REJECTED: " + why
  }

  /** `sendResponse` and `sendRejected`: `STATUS;<timestamp>;<message>`, with
      `REJECTED: ` in front of a reason. Both put the same frame around the
      body. */
  function Wire(timestamp: string, reply: Reply): (r: string)
    ensures ';' !in timestamp ==>
      var rest := timestamp + ";" + Body(reply);
      && SplitFirst(r, ';') == Some(("STATUS", rest))
      && SplitFirst(rest, ';') == Some((timestamp, Body(reply)))
  {
    var frame := "STATUS;" + timestamp + ";";
    var r := match reply
      case Response(m) => frame + m
      case Rejected(why) => frame + "REJECTED: " + why;
    var rest := timestamp + ";" + Body(reply);
    assert r == "STATUS" + [';'] + rest;
    SplitFirstJoin("STATUS", rest, ';');
    assert ';' !in timestamp ==> SplitFirst(rest, ';') == Some((timestamp, Body(reply))) by {
      if ';' !in timestamp {
        SplitFirstJoin(timestamp, Body(reply), ';');
      }
    }
    r
  }

  /** The command a line selects; `REQUEST_TASK` and `CANCEL_TASK` are matched
      as prefixes, the two queries only as the whole line, in this order. */
  datatype Command = RequestTask | QueueStatus | CancelTask | TaskHistory | Unknown

  /** The four keywords begin with different letters, so at most one applies. */
  lemma KeywordsExclusive(line: string)
    ensures StartsWith(line, "REQUEST_TASK") ==>
      line != "QUEUE_STATUS" && !StartsWith(line, "CANCEL_TASK") && line != "TASK_HISTORY"
    ensures StartsWith(line, "CANCEL_TASK") ==> line != "QUEUE_STATUS" && line != "TASK_HISTORY"
  {
    if StartsWith(line, "REQUEST_TASK") {
      assert line[0] == "REQUEST_TASK"[0];
    }
    if StartsWith(line, "CANCEL_TASK") {
      assert line[0] == "CANCEL_TASK"[0];
    }
  }

  function Classify(line: string): (c: Command)
    ensures c == RequestTask <==> StartsWith(line, "REQUEST_TASK")
    ensures c == QueueStatus <==> line == "QUEUE_STATUS"
    ensures c == CancelTask <==> StartsWith(line, "CANCEL_TASK")
    ensures c == TaskHistory <==> line == "TASK_HISTORY"
  {
    KeywordsExclusive(line);
    if StartsWith(line, "REQUEST_TASK") then RequestTask
    else if line == "QUEUE_STATUS" then QueueStatus
    else if StartsWith(line, "CANCEL_TASK") then CancelTask
    else if line == "TASK_HISTORY" then TaskHistory
    else Unknown
  }

  const FormatError: string := "Invalid REQUEST_TASK format."
  const NumberError: string := "Invalid number format in request. ServiceNumber and Priority must be integers."
  const MySqlFormatError: string := "For service 2005, format: REQUEST_TASK;2005;ClientName;Priority;UserName"
  const CancelFormatError: string := "Invalid CANCEL_TASK format. Expected: CANCEL_TASK;TaskID"
  const CancelIdError: string := "Invalid TaskID format. TaskID must be an integer."

  function InvalidService(service: int): string { "Invalid service number: " + IntToString(service) }
  function RateLimitError(client: string): string { "Rate limit exceeded for client: " + client }
  function QueuedMessage(id: int): string { "Task queued with ID " + IntToString(id) }
  function CancelledMessage(id: int): string { "TaskID " + IntToString(id) + " cancelled successfully" }
  function NotFoundError(id: int): string { "Task " + IntToString(id) + " not found or already running." }

  // ---------------------------------------------------------------------------
  // REQUEST_TASK
  // ---------------------------------------------------------------------------

  /** The fields of a validated `REQUEST_TASK` line. */
  datatype TaskRequest = TaskRequest(service: int, client: string, priority: int, script: string)

  /** True iff the split fields pass every check of `handleTaskRequest` before
      the rate limiter: at least four fields, integer service and priority, and
      either a service of the fixed table or service 2005 with exactly five. */
  predicate WellFormedRequest(parts: seq<string>) {
    && |parts| >= 4
    && ParseInt32(parts[1]).Some?
    && ParseInt32(parts[3]).Some?
    && var service := ParseInt32(parts[1]).value;
       if service == MySqlService then |parts| == 5 else ScriptName(service).Some?
  }

  /** The validation half of `handleTaskRequest`, in the source's order of
      checks: field count, service number, priority, then the script key. */
  function ParseTaskRequest(line: string): (r: Result<TaskRequest>)
    ensures r.Ok? <==> WellFormedRequest(Split(line, ';'))
    ensures r.Ok? ==>
      var parts := Split(line, ';');
      && ParseInt32(parts[1]) == Some(r.value.service)
      && r.value.client == parts[2]
      && ParseInt32(parts[3]) == Some(r.value.priority)
      && r.value.script == (if r.value.service == MySqlService then MySqlScript(parts[4])
                            else ScriptName(r.value.service).value)
    ensures var parts := Split(line, ';');
      |parts| < 4 ==> r == Err(FormatError)
    ensures var parts := Split(line, ';');
      |parts| >= 4 && (ParseInt32(parts[1]).None? || ParseInt32(parts[3]).None?) ==> r == Err(NumberError)
    ensures var parts := Split(line, ';');
      && |parts| >= 4 && ParseInt32(parts[1]) == Some(MySqlService) && ParseInt32(parts[3]).Some?
      && |parts| != 5
      ==> r == Err(MySqlFormatError)
    ensures var parts := Split(line, ';');
      && |parts| >= 4 && ParseInt32(parts[1]).Some? && ParseInt32(parts[3]).Some?
      && ParseInt32(parts[1]).value != MySqlService && ScriptName(ParseInt32(parts[1]).value).None?
      ==> r == Err(InvalidService(ParseInt32(parts[1]).value))
  {
    var parts := Split(line, ';');
    if |parts| < 4 then Err(FormatError)
    else match (ParseInt32(parts[1]), ParseInt32(parts[3]))
      case (None, _) => Err(NumberError)
      case (_, None) => Err(NumberError)
      case (Some(service), Some(priority)) =>
        if service == MySqlService then
          if |parts| != 5 then Err(MySqlFormatError)
          else Ok(TaskRequest(service, parts[2], priority, MySqlScript(parts[4])))
        else match ScriptName(service)
          case None => Err(InvalidService(service))
          case Some(script) => Ok(TaskRequest(service, parts[2], priority, script))
  }

  /** The line a client sends to request a task of the fixed table. */
  function RequestLine(service: int, client: string, priority: int): string {
    "REQUEST_TASK;" + IntToString(service) + ";" + client + ";" + IntToString(priority)
  }

  /** The line requesting service 2005 for database user `user`. */
  function MySqlRequestLine(client: string, priority: int, user: string): string {
    RequestLine(MySqlService, client, priority) + ";" + user
  }

  lemma JoinRequestLine(service: int, client: string, priority: int)
    ensures RequestLine(service, client, priority)
      == Join(["REQUEST_TASK", IntToString(service), client, IntToString(priority)], ';')
  {
    var fs := ["REQUEST_TASK", IntToString(service), client, IntToString(priority)];
    assert Join(fs[2..], ';') == client + ";" + IntToString(priority);
    assert Join(fs[1..], ';') == IntToString(service) + ";" + Join(fs[2..], ';');
  }

  lemma JoinMySqlRequestLine(client: string, priority: int, user: string)
    ensures MySqlRequestLine(client, priority, user)
      == Join(["REQUEST_TASK", IntToString(MySqlService), client, IntToString(priority), user], ';')
  {
    var fs := ["REQUEST_TASK", IntToString(MySqlService), client, IntToString(priority)];
    JoinRequestLine(MySqlService, client, priority);
    JoinSnoc(fs, user, ';');
    assert fs + [user] == ["REQUEST_TASK", IntToString(MySqlService), client, IntToString(priority), user];
  }

  /** The fields of a fixed-table request line. */
  lemma SplitRequestLine(service: int, client: string, priority: int)
    requires ';' !in client
    ensures Split(RequestLine(service, client, priority), ';')
      == ["REQUEST_TASK", IntToString(service), client, IntToString(priority)]
  {
    var fs := ["REQUEST_TASK", IntToString(service), client, IntToString(priority)];
    JoinRequestLine(service, client, priority);
    IntToStringAvoids(service, ';');
    IntToStringAvoids(priority, ';');
    SplitJoin(fs, ';');
  }

  /** A request line built from a fixed-table service, a client name without
      `;` and a priority validates to exactly those fields. */
  lemma ParseRequestLine(service: int, client: string, priority: int)
    requires IsInt32(service) && IsInt32(priority)
    requires ScriptName(service).Some?
    requires ';' !in client
    ensures ParseTaskRequest(RequestLine(service, client, priority))
      == Ok(TaskRequest(service, client, priority, ScriptName(service).value))
  {
    SplitRequestLine(service, client, priority);
    ParseIntToString(service);
    ParseIntToString(priority);
  }

  /** The fields of a service 2005 request line. */
  lemma SplitMySqlRequestLine(client: string, priority: int, user: string)
    requires ';' !in client && ';' !in user && user != ""
    ensures Split(MySqlRequestLine(client, priority, user), ';')
      == ["REQUEST_TASK", IntToString(MySqlService), client, IntToString(priority), user]
  {
    var fs := ["REQUEST_TASK", IntToString(MySqlService), client, IntToString(priority), user];
    JoinMySqlRequestLine(client, priority, user);
    IntToStringAvoids(MySqlService, ';');
    IntToStringAvoids(priority, ';');
    SplitJoin(fs, ';');
  }

  /** A service 2005 line with a non-empty user name free of `;` validates to
      the user's parameterised script. */
  lemma ParseMySqlRequestLine(client: string, priority: int, user: string)
    requires IsInt32(priority)
    requires ';' !in client && ';' !in user && user != ""
    ensures ParseTaskRequest(MySqlRequestLine(client, priority, user))
      == Ok(TaskRequest(MySqlService, client, priority, MySqlScript(user)))
  {
    SplitMySqlRequestLine(client, priority, user);
    ParseIntToString(MySqlService);
    ParseIntToString(priority);
  }

  /** Whatever the line, an accepted service 2005 request names a non-empty
      user: `split` drops a trailing empty fifth field, leaving four. */
  lemma MySqlUserNonEmpty(line: string)
    requires ParseTaskRequest(line).Ok? && ParseTaskRequest(line).value.service == MySqlService
    ensures var parts := Split(line, ';');
      |parts| == 5 && parts[4] != "" && ParseTaskRequest(line).value.script == MySqlScript(parts[4])
  {
  }

  /** `handleTaskRequest`: validate, then consult the rate limiter, then
      enqueue. A rejection leaves the state exactly as it was. */
  function HandleTaskRequest(s: State, line: string, now: int): (r: (State, Reply))
    ensures r.1.Rejected? <==>
      ParseTaskRequest(line).Err? || RateLimited(s, ParseTaskRequest(line).value.client, now)
    ensures r.1.Rejected? ==> r.0 == s
    ensures ParseTaskRequest(line).Err? ==> r.1.reason == ParseTaskRequest(line).reason
    ensures ParseTaskRequest(line).Ok? && RateLimited(s, ParseTaskRequest(line).value.client, now) ==>
      r.1 == Rejected(RateLimitError(ParseTaskRequest(line).value.client))
    ensures r.1.Response? ==>
      var req := ParseTaskRequest(line).value;
      var id := r.0.counter;
      && id == Increment32(s.counter)
      && r.1.message == QueuedMessage(id)
      && multiset(r.0.queue) == multiset(s.queue) + multiset{Task(id, req.service, req.client, req.priority, now, req.script)}
      && r.0.lastRequest == s.lastRequest[req.client := now]
      && r.0.history == s.history + [LogRecord(id, req.script, req.client, Queued, now)]
      && r.0.running == s.running && r.0.workers == s.workers
  {
    match ParseTaskRequest(line)
    case Err(why) => (s, Rejected(why))
    case Ok(req) =>
      if RateLimited(s, req.client, now) then (s, Rejected(RateLimitError(req.client)))
      else
        var (s', id) := Enqueue(s, req.service, req.client, req.priority, req.script, now);
        (s', Response(QueuedMessage(id)))
  }

  // ---------------------------------------------------------------------------
  // CANCEL_TASK
  // ---------------------------------------------------------------------------

  /** `cancelTask`: exactly two fields and an integer id, then removal of the
      pending task with that id if there is one. */
  function HandleCancel(s: State, line: string, now: int): (r: (State, Reply))
    ensures |Split(line, ';')| != 2 ==> r == (s, Rejected(CancelFormatError))
    ensures var parts := Split(line, ';');
      |parts| == 2 && ParseInt32(parts[1]).None? ==> r == (s, Rejected(CancelIdError))
    ensures r.1.Rejected? ==> r.0 == s
    ensures r.1.Response? <==>
      var parts := Split(line, ';');
      && |parts| == 2
      && ParseInt32(parts[1]).Some?
      && exists k :: 0 <= k < |s.queue| && s.queue[k].id == ParseInt32(parts[1]).value
    ensures r.1.Response? ==>
      var id := ParseInt32(Split(line, ';')[1]).value;
      r.1.message == CancelledMessage(id) && r.0 == Cancel(s, id, now).0
    ensures var parts := Split(line, ';');
      |parts| == 2 && ParseInt32(parts[1]).Some? && r.1.Rejected? ==>
        r.1.reason == NotFoundError(ParseInt32(parts[1]).value)
  {
    var parts := Split(line, ';');
    if |parts| != 2 then (s, Rejected(CancelFormatError))
    else match ParseInt32(parts[1])
      case None => (s, Rejected(CancelIdError))
      case Some(id) =>
        var (s', found) := Cancel(s, id, now);
        if found then (s', Response(CancelledMessage(id))) else (s, Rejected(NotFoundError(id)))
  }

  // ---------------------------------------------------------------------------
  // One request line
  // ---------------------------------------------------------------------------

  /** `handleClientRequest`. Only an accepted `REQUEST_TASK` or a successful
      `CANCEL_TASK` changes the state; queries and rejections do not. */
  function HandleRequest(s: State, line: string, now: int, stamp: int -> string): (r: (State, Reply))
    ensures r.1.Rejected? ==> r.0 == s
    ensures Classify(line) in {QueueStatus, TaskHistory, Unknown} ==> r.0 == s
    ensures Classify(line) == Unknown ==> r.1 == Rejected("Invalid command: " + line)
    ensures Classify(line) == QueueStatus ==> r.1 == Response(QueueStatusText(s.queue, stamp))
    ensures Classify(line) == TaskHistory ==> r.1 == Response(HistoryText(s.history, stamp))
    ensures Classify(line) == RequestTask ==> r == HandleTaskRequest(s, line, now)
    ensures Classify(line) == CancelTask ==> r == HandleCancel(s, line, now)
    ensures r.0.running == s.running && r.0.workers == s.workers
    ensures s.history <= r.0.history && |r.0.history| <= |s.history| + 1
  {
    match Classify(line)
    case RequestTask => HandleTaskRequest(s, line, now)
    case QueueStatus => (s, Response(QueueStatusText(s.queue, stamp)))
    case CancelTask => HandleCancel(s, line, now)
    case TaskHistory => (s, Response(HistoryText(s.history, stamp)))
    case Unknown => (s, Rejected("Invalid command: " + line))
  }
}

=== FILE: registry.dfy ===
/**
  The server's shared scheduling state as one immutable record, and the
  registry operations a client session performs on it: resolving a service
  number to a script, the per-client rate limiter, enqueueing an accepted
  task and cancelling a pending one.
 */
module Registry {
  import opened Base
  import opened Text
  import opened Tasks

  /** The status strings `logTask` records. */
  datatype LogStatus =
    | Queued
    | Cancelled
    | Executing
    | Completed
    | ErrorCode(code: int)   // a non-zero exit code
    | Error                  // the script could not be launched or waited for

  /** The text `logTask` stores. A failed run, and only a failed run, is
      recorded with a status beginning `ERROR`. */
  function StatusText(st: LogStatus): (r: string)
    ensures StartsWith(r, "ERROR") <==> st.ErrorCode? || st == Error
  {
    match st
    case Queued => assert "QUEUED"[0] != 'E'; "QUEUED"
    case Cancelled => assert "CANCELLED"[0] != 'E'; "CANCELLED"
    case Executing => assert "EXECUTING"[1] != 'R'; "EXECUTING"
    case Completed => assert "COMPLETED"[0] != 'E'; "COMPLETED"
    case ErrorCode(c) => "ERROR_CODE_" + IntToString(c)
    case Error => "ERROR"
  }

  /** Distinct statuses are recorded as distinct texts, so a history listing
      identifies each record's status, exit code included. */
  lemma StatusTextInjective(a: LogStatus, b: LogStatus)
    requires StatusText(a) == StatusText(b)
    ensures a == b
  {
    var r := StatusText(a);
    if a.ErrorCode? && b.ErrorCode? {
      var n := |"ERROR_CODE_"|;
      assert IntToString(a.code) == r[n..] == IntToString(b.code);
      IntToStringInjective(a.code, b.code);
    }
  }

  /** One `TaskLog` entry; `at` is the time it was appended. */
  datatype LogRecord = LogRecord(id: int, script: string, client: string, status: LogStatus, at: int)

  /** A task handed to the worker pool; `started` once its worker has logged
      `EXECUTING`. */
  datatype Worker = Worker(task: Task, started: bool)

  /** The static registries of `Server`: the priority queue, the keys of
      `runningScripts`, `clientLastRequest`, `taskHistory` and the value of
      `taskIdCounter`, plus the tasks currently owned by workers. */
  datatype State = State(
    queue: seq<Task>,
    running: set<string>,
    lastRequest: map<string, int>,
    history: seq<LogRecord>,
    counter: Int32,
    workers: seq<Worker>)

  /** The id counter starts here, so the first task gets id 101. */
  const IdSeed: int := 100

  /** Milliseconds a client must wait after its last accepted request. */
  const RateWindow: int := 300_000

  /** The service number whose script name is built from a fifth field. */
  const MySqlService: int := 2005

  const Initial: State := State([], {}, map[], [], IdSeed, [])

  // ---------------------------------------------------------------------------
  // Resource keys
  // ---------------------------------------------------------------------------

  /** `getScriptName`: the fixed table of services 2001 to 2004. */
  function ScriptName(service: int): (r: Option<string>)
    ensures r.Some? <==> 2001 <= service <= 2004
  {
    if service == 2001 then Some("user_setup.sh")
    else if service == 2002 then Some("dir_perms.sh")
    else if service == 2003 then Some("system_monitor.sh")
    else if service == 2004 then Some("file_audit.sh")
    else None
  }

  /** The parameterised key of service 2005. */
  function MySqlScript(user: string): string {
    "MySQL_login_" + user + ".sh"
  }

  /** Distinct services of the fixed table lock distinct scripts, none of which
      a service 2005 request can name, and distinct 2005 users get distinct
      scripts: the lock set separates exactly the requests that differ. */
  lemma ScriptKeysDistinct(a: int, b: int, u: string, v: string)
    ensures ScriptName(a).Some? && ScriptName(b).Some? && a != b ==> ScriptName(a) != ScriptName(b)
    ensures ScriptName(a).Some? ==> ScriptName(a).value != MySqlScript(u)
    ensures MySqlScript(u) == MySqlScript(v) ==> u == v
  {
    if ScriptName(a).Some? {
      assert ScriptName(a).value[0] != MySqlScript(u)[0];
    }
    if MySqlScript(u) == MySqlScript(v) {
      var n := |"MySQL_login_"|;
      assert |u| == |v|;
      assert u == MySqlScript(u)[n..n + |u|];
      assert v == MySqlScript(v)[n..n + |v|];
    }
  }

  // ---------------------------------------------------------------------------
  // Rate limiter
  // ---------------------------------------------------------------------------

  /** `isRateLimited`: the client was accepted less than `RateWindow` ms ago. */
  function RateLimited(s: State, client: string, now: int): (limited: bool)
    ensures client !in s.lastRequest ==> !limited
    ensures limited ==> s.lastRequest[client] > now - RateWindow
  {
    client in s.lastRequest && now - s.lastRequest[client] < RateWindow
  }

  /** A client is limited during the window after its last accepted request
      and free from its end on: the limit lifts once and stays lifted until
      the next acceptance. */
  lemma RateLimitExpires(s: State, client: string, t: int)
    requires client in s.lastRequest
    ensures var last := s.lastRequest[client];
      last <= t < last + RateWindow ==> RateLimited(s, client, t)
    ensures var last := s.lastRequest[client];
      last + RateWindow <= t ==> !RateLimited(s, client, t)
  {
  }

  // ---------------------------------------------------------------------------
  // Enqueue and cancel
  // ---------------------------------------------------------------------------

  /** The task an accepted request creates, with the next id. */
  function NewTask(s: State, service: int, client: string, priority: int, script: string, now: int): (t: Task)
  {
    Task(Increment32(s.counter), service, client, priority, now, script)
  }

  /** An accepted `REQUEST_TASK`: allocate the next id, put the task in the
      queue, stamp the client's rate entry and log `QUEUED`. */
  function Enqueue(s: State, service: int, client: string, priority: int, script: string, now: int): (r: (State, int))
    ensures r.1 == Increment32(s.counter) && r.0.counter == r.1
    ensures multiset(r.0.queue) == multiset(s.queue) + multiset{Task(r.1, service, client, priority, now, script)}
    ensures r.0.lastRequest == s.lastRequest[client := now]
    ensures r.0.history == s.history + [LogRecord(r.1, script, client, Queued, now)]
    ensures r.0.running == s.running && r.0.workers == s.workers
  {
    var t := NewTask(s, service, client, priority, script, now);
    (s.(queue := s.queue + [t],
        lastRequest := s.lastRequest[client := now],
        history := s.history + [LogRecord(t.id, script, client, Queued, now)],
        counter := t.id),
     t.id)
  }

  /** The position the queue's iterator first meets a task with this id. */
  function FindId(q: seq<Task>, id: int): (r: Option<nat>)
    ensures r.Some? ==> r.value < |q| && q[r.value].id == id
    ensures r.Some? ==> forall j :: 0 <= j < r.value ==> q[j].id != id
    ensures r.None? <==> forall j :: 0 <= j < |q| ==> q[j].id != id
    decreases |q|
  {
    if |q| == 0 then None
    else if q[0].id == id then Some(0)
    else match FindId(q[1..], id)
      case None => None
      case Some(k) => Some(k + 1)
  }

  /** The removal step of `cancelTask`: take the pending task with this id out
      of the queue and log `CANCELLED`; the flag says whether one was found. */
  function Cancel(s: State, id: int, now: int): (r: (State, bool))
    ensures r.1 <==> exists k :: 0 <= k < |s.queue| && s.queue[k].id == id
    ensures !r.1 ==> r.0 == s
    ensures r.1 ==> exists k :: (0 <= k < |s.queue| && s.queue[k].id == id
      && r.0.queue == RemoveAt(s.queue, k)
      && r.0.history == s.history + [LogRecord(id, s.queue[k].script, s.queue[k].client, Cancelled, now)])
    ensures r.0.running == s.running && r.0.lastRequest == s.lastRequest
    ensures r.0.counter == s.counter && r.0.workers == s.workers
  {
    match FindId(s.queue, id)
    case None => (s, false)
    case Some(k) =>
      var t := s.queue[k];
      (s.(queue := RemoveAt(s.queue, k),
          history := s.history + [LogRecord(id, t.script, t.client, Cancelled, now)]),
       true)
  }
}

=== FILE: render.dfy ===
/**
  The text bodies of the `QUEUE_STATUS` and `TASK_HISTORY` replies
  (`sendQueueStatus`, `sendTaskHistory`). Dates are formatted by a `stamp`
  function standing for `SimpleDateFormat`.
 */
module Render {
  import opened Text
  import opened Tasks
  import opened Registry

  const QueueHeader: string := "Pending Tasks:"
  const QueueEmpty: string := "Queue is empty."
  const HistoryHeader: string := "Task History:"
  const HistoryEmpty: string := "No task history available."

  /** A `StringBuilder` that starts with `header` and appends `"\n" + line`
      for each line in turn. */
  function AppendLines(header: string, lines: seq<string>): string
    decreases |lines|
  {
    if |lines| == 0 then header else AppendLines(header + "\n" + lines[0], lines[1..])
  }

  /** Appending line by line builds the same text as joining header and lines
      with newlines. */
  lemma {:induction false} AppendLinesIsJoin(header: string, lines: seq<string>)
    ensures AppendLines(header, lines) == Join([header] + lines, '\n')
    decreases |lines|
  {
    if |lines| > 0 {
      AppendLinesIsJoin(header + "\n" + lines[0], lines[1..]);
      JoinPrepend(header, lines);
    }
  }

  lemma {:induction false} JoinPrepend(header: string, lines: seq<string>)
    requires |lines| > 0
    ensures Join([header + "\n" + lines[0]] + lines[1..], '\n') == Join([header] + lines, '\n')
    decreases |lines|
  {
    var a := [header + "\n" + lines[0]] + lines[1..];
    var b := [header] + lines;
    assert b[1..] == lines;
    if |lines| == 1 {
      assert a == [header + "\n" + lines[0]];
    } else {
      assert a[1..] == lines[1..];
      assert lines == [lines[0]] + lines[1..];
    }
  }

  lemma AppendOneLine(header: string, line: string)
    ensures AppendLines(header, [line]) == header + "\n" + line
  {
    var lines := [line];
    assert lines[1..] == [];
    assert AppendLines(header, lines) == AppendLines(header + "\n" + lines[0], lines[1..]);
  }

  /** Appending more lines extends the text built so far. */
  lemma {:induction false} AppendLinesExtends(header: string, lines: seq<string>, more: seq<string>)
    ensures AppendLines(header, lines) <= AppendLines(header, lines + more)
    decreases |lines|
  {
    if |lines| == 0 {
      assert lines + more == more;
      AppendLinesPrefix(header, more);
    } else {
      assert (lines + more)[1..] == lines[1..] + more;
      AppendLinesExtends(header + "\n" + lines[0], lines[1..], more);
    }
  }

  lemma {:induction false} AppendLinesPrefix(header: string, lines: seq<string>)
    ensures header <= AppendLines(header, lines)
    decreases |lines|
  {
    if |lines| > 0 {
      AppendLinesPrefix(header + "\n" + lines[0], lines[1..]);
    }
  }

  // ---------------------------------------------------------------------------
  // QUEUE_STATUS
  // ---------------------------------------------------------------------------

  /** One entry of the pending-task listing, numbered `n`. */
  function QueueLine(n: int, t: Task, stamp: int -> string): string {
    IntToString(n) + ". TaskID=" + IntToString(t.id) + ", Script=" + t.script
      + ", Priority=" + IntToString(t.priority) + ", Client=" + t.client
      + ", QueuedAt=" + stamp(t.enqueuedAt)
  }

  function QueueLines(p: seq<Task>, stamp: int -> string): seq<string> {
    seq(|p|, k requires 0 <= k < |p| => QueueLine(k + 1, p[k], stamp))
  }

  /** `sendQueueStatus`: the header, then the pending tasks in `compareTo`
      order numbered from 1, or the empty-queue line. */
  function QueueStatusText(q: seq<Task>, stamp: int -> string): (r: string)
    ensures QueueHeader + "\n" <= r
    ensures |q| > 0 ==> QueueHeader + "\n" + QueueLine(1, Sort(q)[0], stamp) <= r
  {
    var p := Sort(q);
    var lines := if |p| == 0 then [QueueEmpty] else QueueLines(p, stamp);
    AppendLinesPrefix(QueueHeader + "\n" + lines[0], lines[1..]);
    AppendLines(QueueHeader, lines)
  }

  // ---------------------------------------------------------------------------
  // TASK_HISTORY
  // ---------------------------------------------------------------------------

  /** One entry of the history listing, numbered `n`. */
  function HistoryLine(n: int, e: LogRecord, stamp: int -> string): string {
    IntToString(n) + ". TaskID=" + IntToString(e.id) + ", Script=" + e.script
      + ", Client=" + e.client + ", Status=" + StatusText(e.status)
      + ", Time=" + stamp(e.at)
  }

  function HistoryLines(h: seq<LogRecord>, stamp: int -> string): seq<string> {
    seq(|h|, k requires 0 <= k < |h| => HistoryLine(k + 1, h[k], stamp))
  }

  /** `sendTaskHistory`: the header, then every record in append order
      numbered from 1, or the no-history line. */
  function HistoryText(h: seq<LogRecord>, stamp: int -> string): (r: string)
    ensures HistoryHeader + "\n" <= r
    ensures |h| > 0 ==> HistoryHeader + "\n" + HistoryLine(1, h[0], stamp) <= r
  {
    var lines := if |h| == 0 then [HistoryEmpty] else HistoryLines(h, stamp);
    AppendLinesPrefix(HistoryHeader + "\n" + lines[0], lines[1..]);
    AppendLines(HistoryHeader, lines)
  }

  // ---------------------------------------------------------------------------
  // Properties of the listings
  // ---------------------------------------------------------------------------

  /** A field that cannot break a listing line. */
  predicate OneLine(s: string) {
    '\n' !in s
  }

  lemma QueueLineShape(n: int, t: Task, stamp: int -> string)
    requires OneLine(t.script) && OneLine(t.client) && OneLine(stamp(t.enqueuedAt))
    ensures OneLine(QueueLine(n, t, stamp))
    ensures |QueueLine(n, t, stamp)| > 0 && QueueLine(n, t, stamp)[0] == IntToString(n)[0]
  {
    IntToStringAvoids(n, '\n');
    IntToStringAvoids(t.id, '\n');
    IntToStringAvoids(t.priority, '\n');
  }

  lemma HistoryLineShape(n: int, e: LogRecord, stamp: int -> string)
    requires OneLine(e.script) && OneLine(e.client) && OneLine(stamp(e.at))
    ensures OneLine(HistoryLine(n, e, stamp))
    ensures |HistoryLine(n, e, stamp)| > 0 && HistoryLine(n, e, stamp)[0] == IntToString(n)[0]
  {
    IntToStringAvoids(n, '\n');
    IntToStringAvoids(e.id, '\n');
    StatusTextOneLine(e.status);
  }

  lemma StatusTextOneLine(st: LogStatus)
    ensures OneLine(StatusText(st))
  {
    if st.ErrorCode? {
      IntToStringAvoids(st.code, '\n');
    }
  }

  lemma QueueLinesShape(p: seq<Task>, stamp: int -> string)
    requires forall t :: t in p ==> OneLine(t.script) && OneLine(t.client)
    requires forall ms :: OneLine(stamp(ms))
    ensures forall k :: 0 <= k < |p| ==> OneLine(QueueLines(p, stamp)[k]) && |QueueLines(p, stamp)[k]| > 0
  {
    forall k | 0 <= k < |p|
      ensures OneLine(QueueLines(p, stamp)[k]) && |QueueLines(p, stamp)[k]| > 0
    {
      QueueLineShape(k + 1, p[k], stamp);
    }
  }

  /** Text appended line by line splits back into its header and lines. */
  lemma AppendLinesSplit(header: string, lines: seq<string>)
    requires |lines| > 0 && OneLine(header)
    requires forall k :: 0 <= k < |lines| ==> OneLine(lines[k])
    requires lines[|lines| - 1] != ""
    ensures Split(AppendLines(header, lines), '\n') == [header] + lines
  {
    AppendLinesIsJoin(header, lines);
    SplitJoin([header] + lines, '\n');
  }

  /** The first character after the header line. */
  lemma AppendLinesFirst(header: string, lines: seq<string>)
    requires |lines| > 0 && |lines[0]| > 0
    ensures |AppendLines(header, lines)| > |header| + 1
    ensures AppendLines(header, lines)[|header|] == '\n'
    ensures AppendLines(header, lines)[|header| + 1] == lines[0][0]
  {
    AppendLinesPrefix(header + "\n" + lines[0], lines[1..]);
  }

  /** A body is the empty-queue text exactly when nothing is pending. */
  lemma QueueStatusEmpty(q: seq<Task>, stamp: int -> string)
    ensures QueueStatusText(q, stamp) == QueueHeader + "\n" + QueueEmpty <==> |q| == 0
  {
    var p := Sort(q);
    var text := QueueStatusText(q, stamp);
    var literal := QueueHeader + "\n" + QueueEmpty;
    if |p| > 0 {
      var lines := QueueLines(p, stamp);
      assert lines[0] == QueueLine(1, p[0], stamp);
      assert IntToString(1) == "1";
      AppendLinesFirst(QueueHeader, lines);
      assert text[15] == '1' != literal[15];
    } else {
      AppendOneLine(QueueHeader, QueueEmpty);
    }
  }

  /** A body is the no-history text exactly when the history is empty. */
  lemma HistoryTextEmpty(h: seq<LogRecord>, stamp: int -> string)
    ensures HistoryText(h, stamp) == HistoryHeader + "\n" + HistoryEmpty <==> |h| == 0
  {
    var text := HistoryText(h, stamp);
    var literal := HistoryHeader + "\n" + HistoryEmpty;
    if |h| > 0 {
      var lines := HistoryLines(h, stamp);
      assert lines[0] == HistoryLine(1, h[0], stamp);
      assert IntToString(1) == "1";
      AppendLinesFirst(HistoryHeader, lines);
      assert text[14] == '1' != literal[14];
    } else {
      AppendOneLine(HistoryHeader, HistoryEmpty);
    }
  }

  /** The listing lines of a non-empty sorted snapshot split back apart. */
  lemma QueueBodySplit(p: seq<Task>, stamp: int -> string)
    requires |p| > 0
    requires forall t :: t in p ==> OneLine(t.script) && OneLine(t.client)
    requires forall ms :: OneLine(stamp(ms))
    ensures Split(AppendLines(QueueHeader, QueueLines(p, stamp)), '\n') == [QueueHeader] + QueueLines(p, stamp)
  {
    QueueLinesShape(p, stamp);
    AppendLinesSplit(QueueHeader, QueueLines(p, stamp));
  }

  /** Read back line by line, a `QUEUE_STATUS` body is the header followed by
      one line per pending task: line k (from 1) describes the k-th task of a
      `compareTo`-sorted permutation of the queue. */
  lemma QueueStatusLines(q: seq<Task>, stamp: int -> string)
    requires forall t :: t in q ==> OneLine(t.script) && OneLine(t.client)
    requires forall ms :: OneLine(stamp(ms))
    ensures var ls := Split(QueueStatusText(q, stamp), '\n');
      && |ls| == |q| + 1 + (if |q| == 0 then 1 else 0)
      && ls[0] == QueueHeader
      && (|q| == 0 ==> ls[1] == QueueEmpty)
      && (forall k :: 0 <= k < |q| ==> ls[k + 1] == QueueLine(k + 1, Sort(q)[k], stamp))
  {
    var p := Sort(q);
    if |p| == 0 {
      AppendLinesSplit(QueueHeader, [QueueEmpty]);
    } else {
      SortSameElements(q);
      QueueBodySplit(p, stamp);
      var ls := Split(QueueStatusText(q, stamp), '\n');
      var lines := QueueLines(p, stamp);
      assert ls == [QueueHeader] + lines;
      forall k | 0 <= k < |q| ensures ls[k + 1] == QueueLine(k + 1, p[k], stamp) {
        assert ls[k + 1] == lines[k];
      }
    }
  }

  /** The listing lines of a non-empty history split back apart. */
  lemma HistoryBodySplit(h: seq<LogRecord>, stamp: int -> string)
    requires |h| > 0
    requires forall i :: 0 <= i < |h| ==> OneLine(h[i].script) && OneLine(h[i].client)
    requires forall ms :: OneLine(stamp(ms))
    ensures Split(AppendLines(HistoryHeader, HistoryLines(h, stamp)), '\n') == [HistoryHeader] + HistoryLines(h, stamp)
  {
    var lines := HistoryLines(h, stamp);
    forall k | 0 <= k < |lines|
      ensures OneLine(lines[k]) && |lines[k]| > 0
    {
      HistoryLineShape(k + 1, h[k], stamp);
    }
    AppendLinesSplit(HistoryHeader, lines);
  }

  /** Read back line by line, a `TASK_HISTORY` body is the header followed by
      record k (from 1) of the log on line k. */
  lemma HistoryTextLines(h: seq<LogRecord>, stamp: int -> string)
    requires forall i :: 0 <= i < |h| ==> OneLine(h[i].script) && OneLine(h[i].client)
    requires forall ms :: OneLine(stamp(ms))
    ensures var ls := Split(HistoryText(h, stamp), '\n');
      && |ls| == |h| + 1 + (if |h| == 0 then 1 else 0)
      && ls[0] == HistoryHeader
      && (|h| == 0 ==> ls[1] == HistoryEmpty)
      && (forall k :: 0 <= k < |h| ==> ls[k + 1] == HistoryLine(k + 1, h[k], stamp))
  {
    if |h| == 0 {
      AppendLinesSplit(HistoryHeader, [HistoryEmpty]);
    } else {
      HistoryBodySplit(h, stamp);
      var ls := Split(HistoryText(h, stamp), '\n');
      var lines := HistoryLines(h, stamp);
      assert ls == [HistoryHeader] + lines;
      forall k | 0 <= k < |h| ensures ls[k + 1] == HistoryLine(k + 1, h[k], stamp) {
        assert ls[k + 1] == lines[k];
      }
    }
  }

  /** Once a record has been logged, every later `TASK_HISTORY` body begins
      with the body shown now: appending records never rewrites what an
      earlier query listed. */
  lemma HistoryTextExtends(h: seq<LogRecord>, more: seq<LogRecord>, stamp: int -> string)
    requires |h| > 0
    ensures HistoryText(h, stamp) <= HistoryText(h + more, stamp)
  {
    var a := HistoryLines(h, stamp);
    var b := HistoryLines(h + more, stamp);
    var extra := b[|h|..];
    assert b == a + extra;
    AppendLinesExtends(HistoryHeader, a, extra);
  }
}

=== FILE: safety.dfy ===
/**
  The whole server as a state machine: client requests, dispatcher
  iterations and worker actions interleave as atomic steps. The invariant
  says task ids are unique and bounded by the counter and that no two
  dispatched-but-unfinished tasks share a script; every step keeps it, and
  the history only ever grows.
 */
module Safety {
  import opened Base
  import opened Text
  import opened Tasks
  import opened Registry
  import opened Render
  import opened Protocol
  import opened Dispatcher

  /** One atomic step of some thread of the server. */
  datatype Step =
    | Request(line: string, now: int)                   // a session handles one line
    | Dispatch                                          // one `processTasks` iteration
    | Start(worker: nat, now: int)                      // a worker logs EXECUTING
    | Finish(worker: nat, outcome: Outcome, now: int)   // a worker ends its script

  /** A line from `readLine` holds no line terminator; a worker acts only on
      its own task, first starting and then finishing. */
  predicate Enabled(s: State, step: Step) {
    match step
    case Request(line, _) => '\n' !in line && '\r' !in line
    case Dispatch => true
    case Start(i, _) => i < |s.workers| && !s.workers[i].started
    case Finish(i, _, _) => i < |s.workers| && s.workers[i].started
  }

  /** Replies and broadcasts do not affect the state, so any date format will do. */
  function NoStamp(ms: int): string { "" }

  function Next(s: State, step: Step): State
    requires Enabled(s, step)
  {
    match step
    case Request(line, now) => HandleRequest(s, line, now, NoStamp).0
    case Dispatch => DispatchStep(s).0
    case Start(i, now) => WorkerStart(s, i, now).0
    case Finish(i, o, now) => WorkerFinish(s, i, o, now).0
  }

  /** The state after `steps`, or `None` if one of them is not enabled. */
  function Run(s: State, steps: seq<Step>): Option<State>
    decreases |steps|
  {
    if |steps| == 0 then Some(s)
    else if Enabled(s, steps[0]) then Run(Next(s, steps[0]), steps[1..])
    else None
  }

  // ---------------------------------------------------------------------------
  // The invariant
  // ---------------------------------------------------------------------------

  function WorkerTasks(ws: seq<Worker>): seq<Task> {
    seq(|ws|, i requires 0 <= i < |ws| => ws[i].task)
  }

  function WorkerScripts(ws: seq<Worker>): set<string> {
    set w | w in ws :: w.task.script
  }

  /** Every task the server still owns: pending, or dispatched and unfinished. */
  ghost function Pool(s: State): multiset<Task> {
    multiset(s.queue) + multiset(WorkerTasks(s.workers))
  }

  /** No task is held twice and no two held tasks share an id. */
  ghost predicate IdsUnique(p: multiset<Task>) {
    && (forall t :: p[t] <= 1)
    && (forall t, u :: t in p && u in p && t.id == u.id ==> t == u)
  }

  /** At most one dispatched-but-unfinished task per script. */
  ghost predicate MutualExclusion(ws: seq<Worker>) {
    forall i, j :: 0 <= i < j < |ws| ==> ws[i].task.script != ws[j].task.script
  }

  /** Ids already issued, and fields read from a single request line. */
  ghost predicate TasksWellFormed(p: multiset<Task>, counter: int) {
    forall t :: t in p ==> IdSeed < t.id <= counter && OneLine(t.client) && OneLine(t.script)
  }

  ghost predicate HistoryWellFormed(h: seq<LogRecord>, counter: int) {
    forall e :: e in h ==> IdSeed < e.id <= counter && OneLine(e.client) && OneLine(e.script)
  }

  /** The running set is exactly the scripts of the workers. */
  ghost predicate LocksMatch(s: State) {
    s.running == WorkerScripts(s.workers)
  }

  ghost predicate Inv(s: State) {
    && IdSeed <= s.counter
    && TasksWellFormed(Pool(s), s.counter)
    && IdsUnique(Pool(s))
    && HistoryWellFormed(s.history, s.counter)
    && LocksMatch(s)
    && MutualExclusion(s.workers)
  }

  lemma InitialInv()
    ensures Inv(Initial)
  {
    assert Pool(Initial) == multiset{};
  }

  // ---------------------------------------------------------------------------
  // Helpers about the pool, the history and the workers
  // ---------------------------------------------------------------------------

  lemma PoolShrink(p: multiset<Task>, t: Task, counter: int)
    requires TasksWellFormed(p + multiset{t}, counter) && IdsUnique(p + multiset{t})
    ensures TasksWellFormed(p, counter) && IdsUnique(p)
  {
    var q := p + multiset{t};
    forall u | u in p ensures u in q {}
    forall u ensures p[u] <= 1 {
      assert p[u] <= q[u];
    }
  }

  lemma PoolGrow(p: multiset<Task>, t: Task, counter: int)
    requires TasksWellFormed(p, counter - 1) && IdsUnique(p) && IdSeed < counter
    requires t.id == counter && OneLine(t.client) && OneLine(t.script)
    ensures TasksWellFormed(p + multiset{t}, counter) && IdsUnique(p + multiset{t})
  {
    var q := p + multiset{t};
    assert t !in p;
    forall u ensures q[u] <= 1 {
      if u == t { assert p[u] == 0; }
    }
  }

  /** Equal elements at two positions count twice. */
  lemma DuplicateCount(q: seq<Task>, i: nat, j: nat)
    requires i < j < |q|
    ensures q[i] == q[j] ==> multiset(q)[q[i]] >= 2
  {
    var a, b := q[..j], q[j..];
    assert q == a + b;
    assert q[i] == a[i] && q[j] == b[0];
    assert multiset(a)[q[i]] >= 1 && multiset(b)[q[j]] >= 1;
  }

  /** An element occurring once sits at one position only. */
  lemma DistinctPositions(q: seq<Task>, i: nat, j: nat)
    requires i < |q| && j < |q| && i != j
    requires multiset(q)[q[i]] <= 1
    ensures q[i] != q[j]
  {
    if i < j { DuplicateCount(q, i, j); } else { DuplicateCount(q, j, i); }
  }

  lemma HistoryAppend(h: seq<LogRecord>, e: LogRecord, counter: int)
    requires HistoryWellFormed(h, counter)
    requires IdSeed < e.id <= counter && OneLine(e.client) && OneLine(e.script)
    ensures HistoryWellFormed(h + [e], counter)
  {
  }

  lemma HistoryRaise(h: seq<LogRecord>, counter: int, counter': int)
    requires HistoryWellFormed(h, counter) && counter <= counter'
    ensures HistoryWellFormed(h, counter')
  {
  }

  lemma WorkerAppend(ws: seq<Worker>, w: Worker)
    requires MutualExclusion(ws) && w.task.script !in WorkerScripts(ws)
    ensures WorkerTasks(ws + [w]) == WorkerTasks(ws) + [w.task]
    ensures WorkerScripts(ws + [w]) == WorkerScripts(ws) + {w.task.script}
    ensures MutualExclusion(ws + [w])
  {
    var ws' := ws + [w];
    forall i, j | 0 <= i < j < |ws'|
      ensures ws'[i].task.script != ws'[j].task.script
    {
      if j == |ws| {
        assert ws'[i] in ws;
      }
    }
  }

  lemma WorkerMark(ws: seq<Worker>, i: nat)
    requires i < |ws| && MutualExclusion(ws)
    ensures var ws' := ws[i := Worker(ws[i].task, true)];
      WorkerTasks(ws') == WorkerTasks(ws) && WorkerScripts(ws') == WorkerScripts(ws)
      && MutualExclusion(ws')
  {
    var ws' := ws[i := Worker(ws[i].task, true)];
    forall x | x in WorkerScripts(ws) ensures x in WorkerScripts(ws') {
      var w :| w in ws && w.task.script == x;
      var k :| 0 <= k < |ws| && ws[k] == w;
      assert ws'[k].task == w.task && ws'[k] in ws';
    }
    forall x | x in WorkerScripts(ws') ensures x in WorkerScripts(ws) {
      var w :| w in ws' && w.task.script == x;
      var k :| 0 <= k < |ws'| && ws'[k] == w;
      assert ws[k].task == w.task && ws[k] in ws;
    }
  }

  lemma WorkerScriptsRemove(ws: seq<Worker>, i: nat)
    requires i < |ws| && MutualExclusion(ws)
    ensures WorkerScripts(RemoveWorker(ws, i)) == WorkerScripts(ws) - {ws[i].task.script}
  {
    var ws' := RemoveWorker(ws, i);
    var x0 := ws[i].task.script;
    forall x | x in WorkerScripts(ws')
      ensures x in WorkerScripts(ws) && x != x0
    {
      var w :| w in ws' && w.task.script == x;
      var k :| 0 <= k < |ws'| && ws'[k] == w;
      var k' := if k < i then k else k + 1;
      assert ws[k'] == w && k' != i;
      if k' < i {
        assert ws[k'].task.script != ws[i].task.script;
      } else {
        assert ws[i].task.script != ws[k'].task.script;
      }
    }
    forall x | x in WorkerScripts(ws) && x != x0
      ensures x in WorkerScripts(ws')
    {
      var w :| w in ws && w.task.script == x;
      var k :| 0 <= k < |ws| && ws[k] == w;
      assert k != i;
      var k' := if k < i then k else k - 1;
      assert ws'[k'] == w;
    }
  }

  lemma WorkerRemove(ws: seq<Worker>, i: nat)
    requires i < |ws| && MutualExclusion(ws)
    ensures var ws' := RemoveWorker(ws, i);
      && WorkerTasks(ws') == RemoveAt(WorkerTasks(ws), i)
      && WorkerScripts(ws') == WorkerScripts(ws) - {ws[i].task.script}
      && MutualExclusion(ws')
  {
    WorkerScriptsRemove(ws, i);
  }

  // ---------------------------------------------------------------------------
  // Each kind of step keeps the invariant
  // ---------------------------------------------------------------------------

  lemma ScriptNameOneLine(service: int)
    requires ScriptName(service).Some?
    ensures OneLine(ScriptName(service).value)
  {
    if service == 2001 {
      assert OneLine("user_setup.sh");
    } else if service == 2002 {
      assert OneLine("dir_perms.sh");
    } else if service == 2003 {
      assert OneLine("system_monitor.sh");
    } else {
      assert OneLine("file_audit.sh");
    }
  }

  /** Client name and script of a request read from one line fit on one line. */
  lemma RequestOneLine(req: TaskRequest, line: string)
    requires ParseTaskRequest(line) == Ok(req)
    requires '\n' !in line
    ensures OneLine(req.client) && OneLine(req.script)
  {
    var parts := Split(line, ';');
    SplitAbsent(line, ';', '\n');
    assert OneLine(parts[2]);
    if req.service == MySqlService {
      assert OneLine(parts[4]);
      assert OneLine("MySQL_login_") && OneLine(".sh");
    } else {
      ScriptNameOneLine(req.service);
    }
  }

  lemma EnqueueKeepsInv(s: State, line: string, now: int)
    requires Inv(s) && s.counter < Int32Max && '\n' !in line
    ensures Inv(HandleTaskRequest(s, line, now).0)
  {
    if HandleTaskRequest(s, line, now).1.Response? {
      AcceptKeepsInv(s, line, now);
    }
  }

  lemma AcceptKeepsInv(s: State, line: string, now: int)
    requires Inv(s) && s.counter < Int32Max && '\n' !in line
    requires HandleTaskRequest(s, line, now).1.Response?
    ensures Inv(HandleTaskRequest(s, line, now).0)
  {
    var s' := HandleTaskRequest(s, line, now).0;
    var req := ParseTaskRequest(line).value;
    RequestOneLine(req, line);
    var t := Task(s'.counter, req.service, req.client, req.priority, now, req.script);
    assert Pool(s') == Pool(s) + multiset{t};
    PoolGrow(Pool(s), t, s'.counter);
    HistoryRaise(s.history, s.counter, s'.counter);
    HistoryAppend(s.history, LogRecord(t.id, req.script, req.client, Queued, now), s'.counter);
  }

  /** The position `Cancel` removed, and the state it left. */
  lemma CancelWitness(s: State, id: int, now: int) returns (k: nat)
    requires Cancel(s, id, now).1
    ensures k < |s.queue| && s.queue[k].id == id
    ensures Cancel(s, id, now).0 == s.(queue := RemoveAt(s.queue, k),
      history := s.history + [LogRecord(id, s.queue[k].script, s.queue[k].client, Cancelled, now)])
  {
    k := FindId(s.queue, id).value;
  }

  /** Ids are unique, so after removing a pending task no task with its id
      is left in the queue. */
  lemma RemovedIdGone(q: seq<Task>, k: nat)
    requires IdsUnique(multiset(q)) && k < |q|
    ensures forall j :: 0 <= j < |RemoveAt(q, k)| ==> RemoveAt(q, k)[j].id != q[k].id
  {
    var rest := RemoveAt(q, k);
    forall j | 0 <= j < |rest| ensures rest[j].id != q[k].id {
      var j' := if j < k then j else j + 1;
      assert rest[j] == q[j'];
      DistinctPositions(q, k, j');
      assert q[j'] in multiset(q) && q[k] in multiset(q);
    }
  }

  /** The queue alone keeps the ids unique. */
  lemma QueueIdsUnique(s: State)
    requires IdsUnique(Pool(s))
    ensures IdsUnique(multiset(s.queue))
  {
    var p := multiset(s.queue);
    forall t ensures p[t] <= 1 { assert p[t] <= Pool(s)[t]; }
    forall t | t in p ensures t in Pool(s) {}
  }

  /** Taking a pending task out of the queue and logging it keeps the invariant. */
  lemma RemoveKeepsInv(s: State, k: nat, e: LogRecord)
    requires Inv(s) && k < |s.queue|
    requires e.id == s.queue[k].id && e.script == s.queue[k].script && e.client == s.queue[k].client
    ensures Inv(s.(queue := RemoveAt(s.queue, k), history := s.history + [e]))
  {
    var s' := s.(queue := RemoveAt(s.queue, k), history := s.history + [e]);
    var t := s.queue[k];
    assert multiset(s'.queue) + multiset{t} == multiset(s.queue);
    assert Pool(s') + multiset{t} == Pool(s);
    assert t in Pool(s);
    PoolShrink(Pool(s'), t, s.counter);
    HistoryAppend(s.history, e, s.counter);
  }

  lemma CancelKeepsInv(s: State, line: string, now: int)
    requires Inv(s)
    ensures Inv(HandleCancel(s, line, now).0)
  {
    if HandleCancel(s, line, now).1.Response? {
      var id := ParseInt32(Split(line, ';')[1]).value;
      var k := CancelWitness(s, id, now);
      RemoveKeepsInv(s, k, LogRecord(id, s.queue[k].script, s.queue[k].client, Cancelled, now));
    }
  }

  lemma RequestKeepsInv(s: State, line: string, now: int, stamp: int -> string)
    requires Inv(s) && s.counter < Int32Max && '\n' !in line
    ensures Inv(HandleRequest(s, line, now, stamp).0)
  {
    match Classify(line)
    case RequestTask => EnqueueKeepsInv(s, line, now);
    case CancelTask => CancelKeepsInv(s, line, now);
    case _ =>
  }

  lemma DispatchKeepsInv(s: State)
    requires Inv(s)
    ensures Inv(DispatchStep(s).0)
  {
    var (s', d) := DispatchStep(s);
    if d.Started? {
      var t := d.task;
      WorkerAppend(s.workers, Worker(t, false));
      assert Pool(s') == Pool(s);
    } else if d.Deferred? {
      assert Pool(s') == Pool(s);
    }
  }

  lemma StartKeepsInv(s: State, i: nat, now: int)
    requires Inv(s) && i < |s.workers| && !s.workers[i].started
    ensures Inv(WorkerStart(s, i, now).0)
  {
    var s' := WorkerStart(s, i, now).0;
    var t := s.workers[i].task;
    WorkerMark(s.workers, i);
    assert Pool(s') == Pool(s);
    assert t == WorkerTasks(s.workers)[i];
    assert t in Pool(s);
    HistoryAppend(s.history, LogRecord(t.id, t.script, t.client, Executing, now), s.counter);
  }

  lemma FinishKeepsInv(s: State, i: nat, o: Outcome, now: int)
    requires Inv(s) && i < |s.workers| && s.workers[i].started
    ensures Inv(WorkerFinish(s, i, o, now).0)
  {
    var s' := WorkerFinish(s, i, o, now).0;
    var t := s.workers[i].task;
    WorkerRemove(s.workers, i);
    assert WorkerTasks(s.workers)[i] == t;
    assert Pool(s') + multiset{t} == Pool(s);
    assert t in Pool(s);
    PoolShrink(Pool(s'), t, s.counter);
    HistoryAppend(s.history, LogRecord(t.id, t.script, t.client, TerminalStatus(o), now), s.counter);
  }

  /** Every enabled step keeps the invariant, as long as the id counter has
      not reached the top of the `int` range. */
  lemma NextKeepsInv(s: State, step: Step)
    requires Inv(s) && Enabled(s, step) && s.counter < Int32Max
    ensures Inv(Next(s, step))
  {
    match step
    case Request(line, now) => RequestKeepsInv(s, line, now, NoStamp);
    case Dispatch => DispatchKeepsInv(s);
    case Start(i, now) => StartKeepsInv(s, i, now);
    case Finish(i, o, now) => FinishKeepsInv(s, i, o, now);
  }

  /** A step raises the id counter by at most one, and only an accepted
      request raises it at all. */
  lemma NextCounter(s: State, step: Step)
    requires Enabled(s, step) && s.counter < Int32Max
    ensures Next(s, step).counter == s.counter || Next(s, step).counter == s.counter + 1
    ensures Next(s, step).counter == s.counter + 1 ==>
      step.Request? && Classify(step.line) == RequestTask
  {
  }

  /** The history grows by at most one record per step and never changes what
      it already holds. */
  lemma NextHistory(s: State, step: Step)
    requires Enabled(s, step)
    ensures s.history <= Next(s, step).history
    ensures |Next(s, step).history| <= |s.history| + 1
  {
  }

  /** From a state satisfying the invariant, every run short enough not to
      exhaust the id counter ends in a state satisfying it, with a history
      that extends the starting one. */
  lemma {:induction false} RunKeepsInv(s: State, steps: seq<Step>)
    requires Inv(s) && s.counter + |steps| <= Int32Max
    ensures Run(s, steps).Some? ==>
      && Inv(Run(s, steps).value)
      && s.history <= Run(s, steps).value.history
      && s.counter <= Run(s, steps).value.counter <= s.counter + |steps|
    decreases |steps|
  {
    if |steps| > 0 && Enabled(s, steps[0]) {
      NextKeepsInv(s, steps[0]);
      NextHistory(s, steps[0]);
      NextCounter(s, steps[0]);
      RunKeepsInv(Next(s, steps[0]), steps[1..]);
    }
  }

  // ---------------------------------------------------------------------------
  // The lock discipline alone, for runs of any length
  // ---------------------------------------------------------------------------

  /** The part of the invariant about scripts and locks. It mentions neither
      ids nor the counter, so the wrap-around of the counter cannot break it. */
  ghost predicate LocksInv(s: State) {
    LocksMatch(s) && MutualExclusion(s.workers)
  }

  /** Every enabled step keeps the lock discipline, whatever the counter. */
  lemma NextKeepsLocks(s: State, step: Step)
    requires LocksInv(s) && Enabled(s, step)
    ensures LocksInv(Next(s, step))
  {
    match step
    case Request(line, now) =>
    case Dispatch =>
      var d := DispatchStep(s).1;
      if d.Started? {
        WorkerAppend(s.workers, Worker(d.task, false));
      }
    case Start(i, now) => WorkerMark(s.workers, i);
    case Finish(i, o, now) => WorkerRemove(s.workers, i);
  }

  lemma {:induction false} RunKeepsLocks(s: State, steps: seq<Step>)
    requires LocksInv(s)
    ensures Run(s, steps).Some? ==> LocksInv(Run(s, steps).value)
    decreases |steps|
  {
    if |steps| > 0 && Enabled(s, steps[0]) {
      NextKeepsLocks(s, steps[0]);
      RunKeepsLocks(Next(s, steps[0]), steps[1..]);
    }
  }

  /** In every state the server reaches from start-up, no two unfinished
      dispatched tasks share a script and the lock set is exactly their
      scripts. Task ids are unique in every state reached in at most
      2^31 - 101 steps, before the id counter can wrap around. */
  lemma ReachableSafe(steps: seq<Step>)
    ensures Run(Initial, steps).Some? ==>
      var s := Run(Initial, steps).value;
      MutualExclusion(s.workers) && s.running == WorkerScripts(s.workers)
    ensures Run(Initial, steps).Some? && |steps| <= Int32Max - IdSeed ==>
      IdsUnique(Pool(Run(Initial, steps).value))
  {
    InitialInv();
    RunKeepsLocks(Initial, steps);
    if |steps| <= Int32Max - IdSeed {
      RunKeepsInv(Initial, steps);
    }
  }

  // ---------------------------------------------------------------------------
  // Properties of single requests
  // ---------------------------------------------------------------------------

  /** An accepted request gets the id after the counter, larger than the id
      of every task and history record before it. */
  lemma AcceptedIdFresh(s: State, line: string, now: int)
    requires Inv(s) && s.counter < Int32Max
    requires HandleTaskRequest(s, line, now).1.Response?
    ensures var id := HandleTaskRequest(s, line, now).0.counter;
      && id == s.counter + 1
      && (forall t :: t in Pool(s) ==> t.id < id)
      && (forall e :: e in s.history ==> e.id < id)
  {
  }

  /** Once a pending task has been cancelled, cancelling it again reports it
      as not found and changes nothing. */
  lemma CancelTwice(s: State, line: string, now: int, later: int)
    requires Inv(s)
    ensures HandleCancel(s, line, now).1.Response? ==>
      var s' := HandleCancel(s, line, now).0;
      var id := ParseInt32(Split(line, ';')[1]).value;
      HandleCancel(s', line, later) == (s', Rejected(NotFoundError(id)))
  {
    if HandleCancel(s, line, now).1.Response? {
      var id := ParseInt32(Split(line, ';')[1]).value;
      var k := CancelWitness(s, id, now);
      QueueIdsUnique(s);
      RemovedIdGone(s.queue, k);
    }
  }

  /** After a client's request is accepted at time `t`, its next valid request
      at `t2` is rejected exactly when it comes less than 300 000 ms later. */
  lemma RateWindowAfterAccept(s: State, line: string, t: int, line2: string, t2: int)
    ensures
      && HandleTaskRequest(s, line, t).1.Response?
      && ParseTaskRequest(line2).Ok?
      && ParseTaskRequest(line2).value.client == ParseTaskRequest(line).value.client
      ==>
      var s' := HandleTaskRequest(s, line, t).0;
      HandleTaskRequest(s', line2, t2).1.Rejected? <==> t2 - t < RateWindow
  {
  }
}

=== FILE: scenarios.dfy ===
/**
  Concrete conversations with a freshly started server, derived from the
  general lemmas about parsing, validation and rendering. Each request line is
  a parameter fixed by a `requires` rather than a literal in the `ensures`:
  the verifier then reasons about the line through the general lemmas instead
  of unfolding the literal character by character.
 */
module Scenarios {
  import opened Base
  import opened Text
  import opened Tasks
  import opened Registry
  import opened Render
  import opened Protocol

  lemma SmallNumerals()
    ensures IntToString(1) == "1" && IntToString(101) == "101"
    ensures IntToString(999) == "999"
    ensures IntToString(2001) == "2001" && IntToString(2005) == "2005"
  {
  }

  /** The first request of `Client1` for service 2001 at priority 1. */
  lemma FirstRequestLine()
    ensures "REQUEST_TASK;2001;Client1;1" == RequestLine(2001, "Client1", 1)
  {
    SmallNumerals();
  }

  lemma FirstRequestParse(line: string)
    requires line == "REQUEST_TASK;2001;Client1;1"
    ensures ParseTaskRequest(line) == Ok(TaskRequest(2001, "Client1", 1, "user_setup.sh"))
  {
    FirstRequestLine();
    ParseRequestLine(2001, "Client1", 1);
  }

  lemma FirstRequestReply(line: string, now: int)
    requires line == "REQUEST_TASK;2001;Client1;1"
    ensures HandleTaskRequest(Initial, line, now).1 == Response(QueuedMessage(101))
  {
    FirstRequestParse(line);
    assert !RateLimited(Initial, "Client1", now);
  }

  /** The first accepted request of a fresh server is given id 101. */
  lemma FirstRequest(line: string, now: int, stamp: int -> string)
    requires line == "REQUEST_TASK;2001;Client1;1"
    ensures HandleRequest(Initial, line, now, stamp).1 == Response(QueuedMessage(101))
  {
    assert StartsWith(line, "REQUEST_TASK");
    assert Classify(line) == RequestTask;
    FirstRequestReply(line, now);
  }

  /** A service 2005 request without the user field is turned away with the
      message naming the five-field format, and nothing is enqueued. */
  lemma MySqlWithoutUserParse(line: string)
    requires line == "REQUEST_TASK;2005;Client2;1"
    ensures ParseTaskRequest(line) == Err(MySqlFormatError)
  {
    SmallNumerals();
    assert line == RequestLine(2005, "Client2", 1);
    SplitRequestLine(2005, "Client2", 1);
    ParseIntToString(2005);
    ParseIntToString(1);
  }

  lemma MySqlWithoutUser(line: string, now: int, stamp: int -> string)
    requires line == "REQUEST_TASK;2005;Client2;1"
    ensures HandleRequest(Initial, line, now, stamp) == (Initial, Rejected(MySqlFormatError))
  {
    assert StartsWith(line, "REQUEST_TASK");
    assert Classify(line) == RequestTask;
    MySqlWithoutUserParse(line);
  }

  /** The fields of a cancellation line. */
  lemma SplitCancelLine()
    ensures Split("CANCEL_TASK;999", ';') == ["CANCEL_TASK", "999"]
  {
    var fs := ["CANCEL_TASK", "999"];
    assert Join(fs, ';') == "CANCEL_TASK;999";
    SplitJoin(fs, ';');
  }

  /** Cancelling an id that was never issued is reported as not found. */
  lemma CancelUnknownReply(line: string, now: int)
    requires line == "CANCEL_TASK;999"
    ensures HandleCancel(Initial, line, now) == (Initial, Rejected(NotFoundError(999)))
  {
    SplitCancelLine();
    ParseIntToString(999);
    SmallNumerals();
    assert ParseInt32(Split(line, ';')[1]) == Some(999);
  }

  lemma CancelUnknown(line: string, now: int, stamp: int -> string)
    requires line == "CANCEL_TASK;999"
    ensures HandleRequest(Initial, line, now, stamp) == (Initial, Rejected(NotFoundError(999)))
  {
    assert StartsWith(line, "CANCEL_TASK");
    assert Classify(line) == CancelTask;
    CancelUnknownReply(line, now);
  }

  /** `QUEUE_STATUS` on an empty queue. */
  lemma EmptyQueueStatus(line: string, now: int, stamp: int -> string)
    requires line == "QUEUE_STATUS"
    ensures HandleRequest(Initial, line, now, stamp)
      == (Initial, Response(QueueHeader + "\n" + QueueEmpty))
  {
    QueueStatusEmpty([], stamp);
  }

  /** Three tasks enqueued at the same instant with priorities 3, 1 and 2 are
      listed as priority 1, 2, 3. */
  lemma PriorityOrder(a: Task, b: Task, c: Task)
    requires a.priority == 3 && b.priority == 1 && c.priority == 2
    requires a.enqueuedAt == b.enqueuedAt == c.enqueuedAt
    ensures Sort([a, b, c]) == [b, c, a]
  {
    assert [a, b, c][1..] == [b, c];
    assert [b, c][1..] == [c];
    assert Sort([c]) == [c];
    assert Sort([b, c]) == Insert(b, [c]) == [b, c];
    assert Insert(a, [c]) == [c, a];
    assert Insert(a, [b, c]) == [b] + Insert(a, [c]);
  }

  /** Two tasks of equal priority are listed in the order they were enqueued. */
  lemma FifoTieBreak(a: Task, b: Task)
    requires a.priority == b.priority && a.enqueuedAt < b.enqueuedAt
    ensures Sort([b, a]) == [a, b] && Sort([a, b]) == [a, b]
    ensures MinIndex([b, a]) == 1 && MinIndex([a, b]) == 0
  {
    assert [b, a][1..] == [a];
    assert [a, b][1..] == [b];
  }
}

=== FILE: tasks.dfy ===
/**
  A queued unit of work and the order the scheduler keeps its pending tasks
  in (`Server.Task` and `Task.compareTo`), with the two uses of that order:
  the sorted snapshot behind `QUEUE_STATUS` and the minimum the dispatcher
  takes from the priority queue.
 */
module Tasks {

  /** A task as created on an accepted `REQUEST_TASK`. `enqueuedAt` is the
      creation time in milliseconds; it only breaks priority ties. */
  datatype Task = Task(
    id: int,
    service: int,
    client: string,
    priority: int,
    enqueuedAt: int,
    script: string)

  /** `Task.compareTo`: `Integer.compare` on priorities, then `Long.compare`
      on enqueue times. */
  function Compare(a: Task, b: Task): int
  {
    if a.priority != b.priority then
      if a.priority < b.priority then -1 else 1
    else if a.enqueuedAt < b.enqueuedAt then -1
    else if a.enqueuedAt == b.enqueuedAt then 0
    else 1
  }

  /** `a` may be taken no later than `b`. */
  predicate Precedes(a: Task, b: Task) {
    Compare(a, b) <= 0
  }

  /** The order is lexicographic on (priority, enqueue time): a lower
      priority value wins, and among equal priorities the earlier task. */
  lemma PrecedesLexicographic(a: Task, b: Task)
    ensures Precedes(a, b) <==>
      a.priority < b.priority || (a.priority == b.priority && a.enqueuedAt <= b.enqueuedAt)
    ensures Compare(a, b) == 0 <==> a.priority == b.priority && a.enqueuedAt == b.enqueuedAt
  {
  }

  /** `compareTo` is antisymmetric in sign, as `Comparable` requires. */
  lemma CompareAntisymmetric(a: Task, b: Task)
    ensures Compare(a, b) == -Compare(b, a)
    ensures -1 <= Compare(a, b) <= 1
  {
  }

  /** `Precedes` is a total preorder: reflexive, transitive and total. */
  lemma PrecedesTotalPreorder(a: Task, b: Task, c: Task)
    ensures Precedes(a, a)
    ensures Precedes(a, b) || Precedes(b, a)
    ensures Precedes(a, b) && Precedes(b, c) ==> Precedes(a, c)
  {
  }

  ghost predicate Sorted(ts: seq<Task>) {
    forall i, j :: 0 <= i < j < |ts| ==> Precedes(ts[i], ts[j])
  }

  /** The head of a sorted sequence precedes everything after it. */
  lemma SortedHead(ts: seq<Task>)
    requires Sorted(ts) && |ts| > 0
    ensures forall u :: u in ts[1..] ==> Precedes(ts[0], u)
  {
    forall u | u in ts[1..] ensures Precedes(ts[0], u) {
      var k :| 0 <= k < |ts[1..]| && ts[1..][k] == u;
      assert ts[k + 1] == u;
    }
  }

  /** The recursive case of `Insert` keeps the result sorted. */
  lemma ConsSorted(h: Task, t: Task, tail: seq<Task>, rest: seq<Task>)
    requires forall u :: u in tail ==> Precedes(h, u)
    requires !Precedes(t, h)
    requires multiset(rest) == multiset(tail) + multiset{t}
    requires Sorted(rest)
    ensures Sorted([h] + rest)
  {
    forall u | u in rest ensures Precedes(h, u) {
      assert u in multiset(rest);
    }
    var r := [h] + rest;
    forall i, j | 0 <= i < j < |r| ensures Precedes(r[i], r[j]) {
      assert r[j] == rest[j - 1];
      if i > 0 {
        assert r[i] == rest[i - 1];
      } else {
        assert rest[j - 1] in rest;
      }
    }
  }

  /** Places `t` in front of the first element it precedes. */
  function Insert(t: Task, ts: seq<Task>): (r: seq<Task>)
    requires Sorted(ts)
    ensures Sorted(r)
    ensures multiset(r) == multiset(ts) + multiset{t}
    ensures |r| == |ts| + 1
    decreases |ts|
  {
    if |ts| == 0 || Precedes(t, ts[0]) then
      [t] + ts
    else
      var rest := Insert(t, ts[1..]);
      assert ts == [ts[0]] + ts[1..];
      SortedHead(ts);
      ConsSorted(ts[0], t, ts[1..], rest);
      [ts[0]] + rest
  }

  /** The sorted snapshot of `Collections.sort`: a permutation of `ts` in
      `compareTo` order. Equal tasks keep their relative order in `ts`; the
      source's copy of the queue is in heap-array order, so among equal
      tasks the two orders may differ. */
  function Sort(ts: seq<Task>): (r: seq<Task>)
    ensures Sorted(r)
    ensures multiset(r) == multiset(ts)
    ensures |r| == |ts|
    decreases |ts|
  {
    if |ts| == 0 then []
    else
      assert ts == [ts[0]] + ts[1..];
      Insert(ts[0], Sort(ts[1..]))
  }

  /** Sorting neither adds nor loses a task. */
  lemma SortSameElements(ts: seq<Task>)
    ensures forall t :: t in Sort(ts) <==> t in ts
  {
    forall t ensures t in Sort(ts) <==> t in ts {
      assert t in Sort(ts) <==> t in multiset(Sort(ts));
      assert t in ts <==> t in multiset(ts);
    }
  }

  /** The position the priority queue's `take` removes: a task preceding
      every other one, the first such in queue order. */
  function MinIndex(q: seq<Task>): (i: nat)
    requires |q| > 0
    ensures i < |q|
    ensures forall j :: 0 <= j < |q| ==> Precedes(q[i], q[j])
    ensures forall j :: 0 <= j < i ==> !Precedes(q[j], q[i])
    decreases |q|
  {
    if |q| == 1 then 0
    else
      var k := 1 + MinIndex(q[1..]);
      assert forall j :: 1 <= j < |q| ==> q[j] == q[1..][j - 1];
      if Precedes(q[0], q[k]) then 0 else k
  }

  /** `q` without its element at `i`, the others in their order. */
  function RemoveAt(q: seq<Task>, i: nat): (r: seq<Task>)
    requires i < |q|
    ensures |r| == |q| - 1
    ensures multiset(r) + multiset{q[i]} == multiset(q)
    ensures forall k :: 0 <= k < |r| ==> r[k] == (if k < i then q[k] else q[k + 1])
  {
    assert q == q[..i] + [q[i]] + q[i + 1..];
    q[..i] + q[i + 1..]
  }
}

=== FILE: text.dfy ===
/**
  The pieces of `java.lang.String` and `java.lang.Integer` the server's line
  protocol relies on: `startsWith`, `split(";")` (which drops trailing empty
  fields), `Integer.parseInt` and `Integer.toString`.
 */
module Text {
  import opened Base

  predicate StartsWith(s: string, prefix: string) {
    |prefix| <= |s| && s[..|prefix|] == prefix
  }

  // ---------------------------------------------------------------------------
  // Splitting on a one-character delimiter
  // ---------------------------------------------------------------------------

  /** Every field between delimiters, empty ones included: a string with k
      delimiters has k + 1 fields. */
  function SplitAll(s: string, d: char): (r: seq<string>)
    ensures |r| >= 1
    ensures forall k :: 0 <= k < |r| ==> d !in r[k]
    decreases |s|
  {
    if |s| == 0 then [""]
    else if s[0] == d then [""] + SplitAll(s[1..], d)
    else
      var rest := SplitAll(s[1..], d);
      [[s[0]] + rest[0]] + rest[1..]
  }

  /** A character absent from the string is absent from every field. */
  lemma {:induction false} SplitAllAbsent(s: string, d: char, c: char)
    requires c !in s
    ensures forall k :: 0 <= k < |SplitAll(s, d)| ==> c !in SplitAll(s, d)[k]
    decreases |s|
  {
    if |s| > 0 {
      SplitAllAbsent(s[1..], d, c);
    }
  }

  lemma SplitAbsent(s: string, d: char, c: char)
    requires c !in s
    ensures forall k :: 0 <= k < |Split(s, d)| ==> c !in Split(s, d)[k]
  {
    SplitAllAbsent(s, d, c);
  }

  /** Fields glued back together with the delimiter between them. */
  function Join(fs: seq<string>, d: char): string
    requires |fs| >= 1
  {
    if |fs| == 1 then fs[0] else fs[0] + [d] + Join(fs[1..], d)
  }

  /** Joining one more field appends the delimiter and the field. */
  lemma {:induction false} JoinSnoc(fs: seq<string>, f: string, d: char)
    requires |fs| >= 1
    ensures Join(fs + [f], d) == Join(fs, d) + [d] + f
    decreases |fs|
  {
    if |fs| > 1 {
      assert (fs + [f])[1..] == fs[1..] + [f];
      JoinSnoc(fs[1..], f, d);
    }
  }

  lemma {:induction false} JoinSplitAll(s: string, d: char)
    ensures Join(SplitAll(s, d), d) == s
    decreases |s|
  {
    if |s| == 0 {
    } else if s[0] == d {
      JoinSplitAll(s[1..], d);
      assert s == [d] + s[1..];
    } else {
      var rest := SplitAll(s[1..], d);
      JoinSplitAll(s[1..], d);
      if |rest| == 1 {
        assert s == [s[0]] + rest[0];
      } else {
        assert Join(rest, d) == rest[0] + [d] + Join(rest[1..], d);
        assert ([[s[0]] + rest[0]] + rest[1..])[1..] == rest[1..];
        assert s == [s[0]] + s[1..];
      }
    }
  }

  /** Splitting a string that begins with a field free of the delimiter. */
  lemma {:induction false} SplitAllPrefix(f: string, d: char, tail: string)
    requires d !in f
    ensures SplitAll(f + [d] + tail, d) == [f] + SplitAll(tail, d)
    ensures SplitAll(f, d) == [f]
    decreases |f|
  {
    if |f| == 0 {
      assert f + [d] + tail == [d] + tail;
      assert ([d] + tail)[1..] == tail;
    } else {
      SplitAllPrefix(f[1..], d, tail);
      assert (f + [d] + tail)[1..] == f[1..] + [d] + tail;
      assert [f[0]] + f[1..] == f;
    }
  }

  lemma {:induction false} SplitAllJoin(fs: seq<string>, d: char)
    requires |fs| >= 1
    requires forall k :: 0 <= k < |fs| ==> d !in fs[k]
    ensures SplitAll(Join(fs, d), d) == fs
    decreases |fs|
  {
    SplitAllPrefix(fs[0], d, "");
    if |fs| > 1 {
      SplitAllJoin(fs[1..], d);
      SplitAllPrefix(fs[0], d, Join(fs[1..], d));
      assert [fs[0]] + fs[1..] == fs;
    }
  }

  /** Java's `String.split(regex)` with limit 0 removes trailing empty fields. */
  function DropTrailingEmpty(fs: seq<string>): (r: seq<string>)
    ensures r <= fs
    ensures forall k :: |r| <= k < |fs| ==> fs[k] == ""
    ensures |r| == 0 || r[|r| - 1] != ""
    decreases |fs|
  {
    if |fs| == 0 then fs
    else if fs[|fs| - 1] == "" then DropTrailingEmpty(fs[..|fs| - 1])
    else fs
  }

  /** `s.split(String.valueOf(d))` for a delimiter that is not a regex
      metacharacter: when `d` does not occur the whole string is the only
      field (so `""` gives `[""]`), otherwise trailing empty fields vanish. */
  function Split(s: string, d: char): (r: seq<string>)
    ensures forall k :: 0 <= k < |r| ==> d !in r[k]
    ensures r <= SplitAll(s, d)
    ensures forall k :: |r| <= k < |SplitAll(s, d)| ==> SplitAll(s, d)[k] == ""
    ensures d in s ==> |r| == 0 || r[|r| - 1] != ""
    ensures d !in s ==> r == [s]
  {
    if d !in s then
      SplitAllPrefix(s, d, "");
      [s]
    else DropTrailingEmpty(SplitAll(s, d))
  }

  /** Splitting the joined fields gives them back when the last one is not empty. */
  lemma SplitJoin(fs: seq<string>, d: char)
    requires |fs| >= 2
    requires forall k :: 0 <= k < |fs| ==> d !in fs[k]
    requires fs[|fs| - 1] != ""
    ensures Split(Join(fs, d), d) == fs
  {
    SplitAllJoin(fs, d);
    var s := Join(fs, d);
    assert s[|fs[0]|] == d;
  }

  /** The text before and after the first `d` of `s`, if there is one: what a
      reader taking fields off the front of a line one delimiter at a time sees. */
  function SplitFirst(s: string, d: char): (r: Option<(string, string)>)
    ensures r.None? <==> d !in s
    ensures r.Some? ==> d !in r.value.0 && s == r.value.0 + [d] + r.value.1
    decreases |s|
  {
    if |s| == 0 then None
    else if s[0] == d then Some(([], s[1..]))
    else match SplitFirst(s[1..], d)
      case None => None
      case Some((a, b)) => Some(([s[0]] + a, b))
  }

  /** The decomposition is unique: a first field free of `d` is recovered. */
  lemma {:induction false} SplitFirstJoin(a: string, b: string, d: char)
    requires d !in a
    ensures SplitFirst(a + [d] + b, d) == Some((a, b))
    decreases |a|
  {
    if |a| > 0 {
      assert (a + [d] + b)[1..] == a[1..] + [d] + b;
      SplitFirstJoin(a[1..], b, d);
      assert a == [a[0]] + a[1..];
    }
  }

  // ---------------------------------------------------------------------------
  // Decimal rendering and parsing
  // ---------------------------------------------------------------------------

  predicate IsDigit(c: char) {
    '0' <= c <= '9'
  }

  predicate AllDigits(s: string) {
    forall k :: 0 <= k < |s| ==> IsDigit(s[k])
  }

  function DigitChar(n: nat): (c: char)
    requires n < 10
    ensures IsDigit(c)
  {
    (('0' as int) + n) as char
  }

  function DigitValue(c: char): (n: nat)
    requires IsDigit(c)
    ensures n < 10
  {
    (c as int) - ('0' as int)
  }

  /** Decimal digits of `n`, without leading zeros. */
  function NatToString(n: nat): (r: string)
    ensures 1 <= |r|
    ensures AllDigits(r)
    decreases n
  {
    if n < 10 then [DigitChar(n)] else NatToString(n / 10) + [DigitChar(n % 10)]
  }

  /** `Integer.toString` / string concatenation of an integer. */
  function IntToString(n: int): (r: string)
  {
    if n < 0 then "-" + NatToString(-n) else NatToString(n)
  }

  /** The value of a string of decimal digits, most significant first. */
  function DigitsValue(s: string): nat
    requires AllDigits(s)
    decreases |s|
  {
    if |s| == 0 then 0 else DigitsValue(s[..|s| - 1]) * 10 + DigitValue(s[|s| - 1])
  }

  /** The lexical form `Integer.parseInt` accepts: an optional `-` or `+`
      followed by at least one digit. */
  predicate IntShape(s: string) {
    && |s| >= 1
    && if s[0] == '-' || s[0] == '+' then |s| >= 2 && AllDigits(s[1..]) else AllDigits(s)
  }

  /** The mathematical value a string of that form denotes. */
  function ShapeValue(s: string): int
    requires IntShape(s)
  {
    if s[0] == '-' then 0 - DigitsValue(s[1..]) as int
    else if s[0] == '+' then DigitsValue(s[1..])
    else DigitsValue(s)
  }

  /** `Integer.parseInt(s)`: an optional `-` or `+`, then at least one digit,
      and a value that fits in an `int`; anything else is a
      `NumberFormatException`, here `None`. */
  function ParseInt32(s: string): (r: Option<int>)
    ensures r.Some? <==> IntShape(s) && IsInt32(ShapeValue(s))
    ensures r.Some? ==> r.value == ShapeValue(s)
  {
    if |s| == 0 then None
    else
      var negative := s[0] == '-';
      var body := if s[0] == '-' || s[0] == '+' then s[1..] else s;
      if |body| == 0 || !AllDigits(body) then None
      else
        var magnitude: int := DigitsValue(body);
        var v := if negative then -magnitude else magnitude;
        if IsInt32(v) then Some(v) else None
  }

  /** Leading zeros do not change the value of a digit string. */
  lemma {:induction false} DigitsValueLeadingZero(s: string)
    requires AllDigits(s)
    ensures AllDigits("0" + s) && DigitsValue("0" + s) == DigitsValue(s)
    decreases |s|
  {
    var z := "0" + s;
    if |s| > 0 {
      assert z[..|z| - 1] == "0" + s[..|s| - 1];
      DigitsValueLeadingZero(s[..|s| - 1]);
    }
  }

  /** `parseInt` is not limited to canonical numerals: a leading `+` and
      leading zeros are accepted and ignored, and a numeral outside the `int`
      range is rejected. */
  lemma ParseIntNonCanonical(n: nat)
    ensures IsInt32(n) ==> ParseInt32("+" + NatToString(n)) == Some(n)
    ensures IsInt32(n) ==> ParseInt32("0" + NatToString(n)) == Some(n)
    ensures !IsInt32(n) ==> ParseInt32(NatToString(n)) == None
    ensures n > -Int32Min ==> ParseInt32("-" + NatToString(n)) == None
  {
    var d := NatToString(n);
    DigitsValueNatToString(n);
    DigitsValueLeadingZero(d);
    assert ("+" + d)[1..] == d && ("-" + d)[1..] == d;
  }

  lemma {:induction false} DigitsValueNatToString(n: nat)
    ensures DigitsValue(NatToString(n)) == n
    decreases n
  {
    var r := NatToString(n);
    if n < 10 {
      assert r[..0] == [];
    } else {
      DigitsValueNatToString(n / 10);
      assert r[..|r| - 1] == NatToString(n / 10);
    }
  }

  /** Rendering an `int` and parsing it back yields the same `int`. */
  lemma ParseIntToString(n: int)
    requires IsInt32(n)
    ensures ParseInt32(IntToString(n)) == Some(n)
  {
    var s := IntToString(n);
    if n < 0 {
      DigitsValueNatToString(-n);
      assert s[1..] == NatToString(-n);
    } else {
      DigitsValueNatToString(n);
      assert IsDigit(s[0]);
    }
  }

  /** A rendered integer holds only digits and a leading `-`, so any other
      character can separate it from neighbouring text. */
  lemma IntToStringAvoids(n: int, c: char)
    requires !IsDigit(c) && c != '-'
    ensures c !in IntToString(n) && |IntToString(n)| > 0
  {
    var s := IntToString(n);
    if n < 0 {
      assert forall k :: 1 <= k < |s| ==> s[k] == NatToString(-n)[k - 1];
    }
  }

  /** Distinct integers render as distinct strings. */
  lemma IntToStringInjective(a: int, b: int)
    requires IntToString(a) == IntToString(b)
    ensures a == b
  {
    var s := IntToString(a);
    assert s[0] == '-' <==> a < 0;
    assert s[0] == '-' <==> b < 0;
    if a < 0 {
      assert s[1..] == NatToString(-a) == NatToString(-b);
      DigitsValueNatToString(-a);
      DigitsValueNatToString(-b);
    } else {
      DigitsValueNatToString(a);
      DigitsValueNatToString(b);
    }
  }
}
